=== FILE: README.md ===
# Quiz app: scoring, construction and the quiz-builder form

This project is a Dafny model of the logic at the centre of a small quiz application. The application has two halves.

A Django REST backend stores quizzes made of questions. Each question is multiple choice (`mcq`), `true_false` or free `text`. The backend:
- builds a quiz with its questions and choices from one creation request;
- serves a public view of the quiz with the answer keys removed;
- scores a submission of answers against the stored quiz;
- reports the result as a score, a question count, a percentage and one record per answer.

A React page lets an administrator build a quiz. Its state is a list of draft questions with buttons and inputs to add, remove and edit them. A first-failure check runs on submit, and then the page builds the request body it sends to the backend.

The Dafny modules follow the program's structure:

| module | file | models |
|---|---|---|
| `Wrappers` | wrappers.dfy | `Option` and `Result` with failure propagation |
| `Text` | text.dfy | ASCII `strip`/`trim`, Python's and JavaScript's whitespace sets, `lower` |
| `Models` | models.dfy | the stored records, question types, field defaults, `percentage`, the submission label |
| `Serializers` | serializers.dfy | public projections, result projections, and validation of the create and submit requests |
| `Views` | views.dfy | the submit endpoint (judging, scoring, 404 errors) and the create endpoint (defaults, true/false choices) |
| `QuizForm` | quiz_form.dfy | the builder page: drafts, list operations, validation, the payload, and runs of page actions |

Database lookups become searches in sequences. `get_object_or_404` becomes a `Result` failure. A client-side random identifier (`crypto.randomUUID`) becomes a natural number supplied by the caller. Whenever a run of page actions is reasoned about, the identifier is required to be fresh.

Three behaviours of the code are worth stating up front:
- An answer naming a question outside the quiz, or a choice outside its question, aborts the whole submission with a 404 (views.py:128-140); it is not skipped.
- `percentage` is `round(score / total * 100, 1)`, a float with one decimal place (models.py:70-74). The model keeps the exact rational value.
- The percentage can exceed 100: a submission may answer one question several times, and every copy is scored (see Findings).

Request bodies are JSON. For the submission, the model tells an omitted key apart from an explicit `null`, because the serializer refuses `null` for the text answer and the taker's name.

## Model

| member | source | states |
|---|---|---|
| Models.ParseQuestionType | backend/quizzes/models.py:24-28 | a type code is accepted exactly when it is `mcq`, `true_false` or `text`, and the parsed type carries that code |
| Models.QuestionTypeCodeRoundTrip | backend/quizzes/models.py:24-28 | every question type's code parses back to that type |
| Models.QuestionTypeCodeInjective | backend/quizzes/models.py:24-28 | distinct question types have distinct codes |
| Models.Percentage | backend/quizzes/models.py:70-74 | zero questions give 0; a full score gives 100; a score between 0 and the count gives a value in [0, 100]; a score above the count gives more than 100 |
| Models.PercentageMonotonic | backend/quizzes/models.py:74 | for a fixed positive question count, a higher score never gives a lower percentage |
| Models.DisplayName | backend/quizzes/models.py:68 | a missing or empty taker name is shown as "Anonymous"; any other name is shown unchanged; the shown name is never empty |
| Models.NatDigits | backend/quizzes/models.py:68 | the decimal rendering of a natural number is a non-empty digit string without a leading zero, and "0" for zero |
| Models.NatDigitsValue | backend/quizzes/models.py:68 | the digits read back as the number they were produced from |
| Models.IntToString | backend/quizzes/models.py:68 | `str(n)` is canonical: a minus sign exactly for negative n, then digits with no leading zero, "0" for zero and never "-0", and it reads back as n |
| Models.CanonicalIsIntToString | backend/quizzes/models.py:68 | `str` is the only canonical rendering: any canonical string that reads back as n is `str(n)` |
| Models.SubmissionLabel | backend/quizzes/models.py:67-68 | the label is the displayed taker name ("Anonymous" when there is none), " - ", the quiz title and ": ", followed by two numbers split by "/", each in canonical `str` form, that read back as the score and the question count |
| Serializers.PublicQuestionOf | backend/quizzes/serializers.py:30-36 | the public question keeps id, text, type and order, plus one (id, text) pair per choice in order |
| Serializers.PublicQuizOf | backend/quizzes/serializers.py:66-72 | the public quiz keeps id, title and description, plus the public form of every question in order |
| Serializers.WithoutAnswerKeys | backend/quizzes/serializers.py:13-17 | erasing the answer keys leaves no reference answer and no choice flagged correct, and keeps the choice count |
| Serializers.PublicViewHidesAnswerKeys | backend/quizzes/serializers.py:30-36 | two questions that differ only in their answer keys have the same public view, so no key can be read from it |
| Serializers.PublicQuizHidesAnswerKeys | backend/quizzes/serializers.py:66-72 | two quizzes whose questions differ only in answer keys have the same public view |
| Serializers.FirstCorrectIndex | backend/quizzes/serializers.py:142 | finds the first choice flagged correct, or nothing exactly when no choice is flagged |
| Serializers.CorrectChoice | backend/quizzes/serializers.py:140-144 | a text question has no correct choice; otherwise the result is the text of the first choice flagged correct, or nothing when none is |
| Serializers.AnswerResultOf | backend/quizzes/serializers.py:123-138 | an answer result carries the record's question text, type code, verdict and text answer; it has a selected-choice text exactly when a choice was selected, and that text is the selected choice's; it carries the question's correct choice and reference text |
| Serializers.SubmissionResultOf | backend/quizzes/serializers.py:147-156 | the result carries title, name, score, count and the percentage, plus one answer result per record in order |
| Serializers.CharField | backend/quizzes/serializers.py:102-103 | a string field is accepted exactly when it is not all whitespace (unless blanks are allowed), fits the length limit once stripped and holds no NUL character; the value kept is the stripped string |
| Text.StripKeepsNonSpace | backend/quizzes/serializers.py:102-103 | a character that is not whitespace occurs in the stripped string exactly when it occurs in the original, so the NUL check can be stated on the raw input |
| Serializers.ValidateChoice | backend/quizzes/serializers.py:83-86 | a choice is valid exactly when its stripped text is non-blank, at most 200 characters and free of NUL; an omitted flag becomes false |
| Serializers.ValidateAll | backend/quizzes/serializers.py:97-104 | a list validates exactly when every element does, and the validated list keeps the count and the order |
| Serializers.ValidateChoices | backend/quizzes/serializers.py:97 | a choice list is valid exactly when every choice is, and validation keeps the count and the order |
| Serializers.ValidateQuestion | backend/quizzes/serializers.py:89-97 | a question is valid exactly when its text is not blank, no text field holds a NUL, its type code is one of the three and every listed choice is valid; text is stripped, a given order is kept, and a reference answer is stripped with blanks allowed |
| Serializers.ValidateQuestions | backend/quizzes/serializers.py:104 | a question list is valid exactly when every question is, and validation keeps the count and the order |
| Serializers.ValidateQuizWith | backend/quizzes/serializers.py:100-104 | a quiz request is valid exactly when its title is non-blank and at most 200 characters once stripped, title and description hold no NUL, and every question is valid; the title is stripped, a sent description is kept stripped and an omitted one stays absent |
| Serializers.DescriptionField | backend/quizzes/serializers.py:103 | an omitted description stays absent; a sent one is valid unless it holds a NUL, and is kept stripped, blanks allowed |
| Serializers.ValidateCreate | backend/quizzes/serializers.py:94 | after validation every question has an order, and an omitted one is 0 |
| Serializers.ValidateCreateIntended | backend/quizzes/serializers.py:89-97 | accepts the same requests as `ValidateCreate` but keeps an omitted order absent |
| Serializers.OrderDefaultOnlyFillsOrder | backend/quizzes/serializers.py:94 | the order default does not change whether a question is valid, and changes only the validated order |
| Serializers.OrderDefaultKeepsValidity | backend/quizzes/serializers.py:94 | the same for every question of a list |
| Serializers.ValidateAnswer | backend/quizzes/serializers.py:108-113 | an answer is valid exactly when its text answer is omitted or is a string without NUL; `null` is refused; ids are kept and a sent text answer is stripped |
| Serializers.TakerNameField | backend/quizzes/serializers.py:118-119 | the taker name is valid exactly when omitted, or sent as a string at most 100 characters once stripped and without NUL; `null` is refused; a sent name is kept stripped, blanks allowed |
| Serializers.ValidateSubmit | backend/quizzes/serializers.py:108-120 | a submission is valid exactly when its taker name and every answer are; the validated name is the field's value, and the answers keep their count and order, each the validated form of its request answer |
| Views.FindQuiz | backend/quizzes/views.py:109 | finds a quiz with the requested key, or fails exactly when none has it |
| Views.FindQuestion | backend/quizzes/views.py:128-129 | finds a question of the quiz with the given id, or fails exactly when none has it |
| Views.FindChoice | backend/quizzes/views.py:138-139 | finds a choice of the question with the given id, or fails exactly when none has it |
| Views.FindQuestionUnique | backend/quizzes/views.py:128-129 | with distinct keys, looking up a question's id finds that question |
| Views.FindChoiceUnique | backend/quizzes/views.py:138-139 | with distinct keys, looking up a choice's id finds that choice |
| Views.ChoiceSelected | backend/quizzes/views.py:136-137 | Python truthiness of the choice id: absent and 0 select nothing, any other id selects |
| Views.TextMatches | backend/quizzes/views.py:143-145 | a match needs a present, non-empty reference; then the texts match exactly when they agree lower-cased and then stripped, the reverse of the code's order |
| Views.JudgeAnswer | backend/quizzes/views.py:131-145 | judging fails exactly when a choice question names a truthy choice id that is not among its choices. With no choice, or a falsy one, the answer is incorrect. Otherwise the verdict is the selected choice's flag. A text answer is correct exactly when the reference is non-empty and the stripped, lower-cased texts are equal |
| Views.ChoiceVerdict | backend/quizzes/views.py:135-140 | with distinct choice ids, a choice answer succeeds and is correct exactly when a truthy selected id names a choice flagged correct |
| Views.TextVerdictIgnoresCase | backend/quizzes/views.py:144-145 | two answers that lower-case to the same text get the same verdict |
| Views.TextVerdictIgnoresPadding | backend/quizzes/views.py:144-145 | surrounding whitespace added to an answer never changes its verdict |
| Views.EmptyReferenceAcceptsNothing | backend/quizzes/views.py:143 | a missing or empty reference answer marks every answer incorrect |
| Views.SpaceOnlyReferenceAcceptsEmptyAnswer | backend/quizzes/views.py:143-145 | a reference made only of spaces is truthy, so an empty answer matches it |
| Views.ParisExample | backend/quizzes/views.py:141-145 | "Paris", " paris " and "PARIS" all match the reference "Paris" |
| Views.JudgeInQuiz | backend/quizzes/views.py:127-129 | an answer fails with question-not-found exactly when no question of the quiz has its id; otherwise the result is exactly the judgement of the answer against the question found |
| Views.JudgeEach | backend/quizzes/views.py:127-156 | the generic answer loop: one result per input in order, failing exactly when some input fails, with the first failure's error |
| Views.JudgeAll | backend/quizzes/views.py:127-156 | one record per answer, in submission order, each the judgement of that answer; the loop fails exactly when some answer fails, with the error of the first failing answer |
| Views.CountCorrect | backend/quizzes/views.py:147-148 | the score lies between 0 and the number of records; it equals that number exactly when every record is correct, and is 0 exactly when none is |
| Views.CountCorrectCountsTrueVerdicts | backend/quizzes/views.py:124-148 | the running score equals the number of `true` verdicts |
| Views.SubmitTo | backend/quizzes/views.py:115-160 | scoring succeeds exactly when every answer is judged. The count is the quiz's question count whatever was answered, a missing name is stored as empty, there is one record per answer, and the score is the number of correct records, at most the number of answers |
| Views.Submit | backend/quizzes/views.py:108-164 | an unknown quiz fails with quiz-not-found, and an invalid request fails with a validation error; when the quiz is found and the request valid, the result is exactly the scoring of the validated request against that quiz |
| Views.EmptySubmissionScoresZero | backend/quizzes/views.py:118-124 | submitting no answers scores 0 out of the quiz's question count |
| Views.KeyAnswerIsCorrect | backend/quizzes/views.py:131-145 | in a quiz with distinct keys, answering an answerable question with its key is judged correct |
| Views.PerfectSubmission | backend/quizzes/views.py:124-159 | answering every question of an answerable quiz with its key scores the question count, and 100 percent when there are questions |
| Views.RepeatedAnswerInflatesScore | backend/quizzes/views.py:127-148 | two right answers to the one question of a quiz score 2 out of 1, which is 200 percent |
| Views.AnsweredIds | backend/quizzes/views.py:127 | lists the question id of each answer, in order |
| Views.RequestedIds | backend/quizzes/views.py:127 | lists the question id of each answer as received, in order |
| Views.RepeatedId | backend/quizzes/views.py:127 | finds an id that occurs twice, or nothing exactly when the ids are distinct |
| Views.SubmitIntended | backend/quizzes/views.py:127-129 | a submission whose question ids are distinct gets the result of `Submit`; a successful one has distinct ids, a score at most the question count, and a percentage in [0, 100] |
| Views.ScoreWithinQuestionCount | backend/quizzes/views.py:118-148 | when no question is answered twice, the score is at most the quiz's question count |
| Views.ChoiceRowsFor | backend/quizzes/views.py:72-87 | a true/false question with no choices gets exactly [True (correct), False]; otherwise the choices are copied in order, with a missing flag read as false |
| Views.QuestionRowFor | backend/quizzes/views.py:63-70 | text and type are copied; an absent order becomes the question's index and a given one is kept; a given reference answer is stored and an absent one becomes empty; the choices are those of `ChoiceRowsFor` |
| Views.QuizRowFor | backend/quizzes/views.py:56-70 | the quiz keeps title and description (absent becomes empty) and builds every question at its index |
| Views.CreateQuiz | backend/quizzes/views.py:48-87 | creation succeeds exactly when the request validates; the quiz stores the stripped title and the stripped description ("" when omitted), and question i is the row built at index i from the validated question i, with an omitted order stored as 0 |
| Views.CreatedChoicesKeepFlags | backend/quizzes/views.py:82-87 | the stored choices of a multiple-choice question are the sent ones, in order, with stripped text and the sent flags (absent read as false) |
| Views.OmittedOrderBecomesZero | backend/quizzes/views.py:68 | a second question sent without an order is stored with order 0, not its index 1 |
| Views.CreateQuizIntended | backend/quizzes/views.py:63-70 | with the intended validation, an omitted order is stored as the question's index and a given one is kept |
| Views.IntendedRowsAgree | backend/quizzes/views.py:63-70 | a request the intended validation accepts is also created as written, and each stored question differs at most in its order |
| Views.IntendedRowAgrees | backend/quizzes/views.py:63-70 | the same for one question |
| Text.TrimLeft | backend/quizzes/views.py:144 | the result is a suffix of the input, what was removed is whitespace, and the result does not start with whitespace |
| Text.TrimRight | backend/quizzes/views.py:144 | the result is a prefix of the input, what was removed is whitespace, and the result does not end with whitespace |
| Text.Lower | backend/quizzes/views.py:144-145 | lower-casing keeps the length and maps every ASCII capital to its small letter, leaving other characters alone |
| Text.PyStrip | backend/quizzes/views.py:144 | Python's `strip()` never lengthens a string and leaves no whitespace at either end |
| Text.JsTrim | frontend/src/pages/admin/quiz/create.tsx:112 | JavaScript's `trim()` never lengthens a string and leaves no whitespace at either end |
| Text.TrimCharacterised | backend/quizzes/views.py:144-145 | a stripped string is a slice of the input with whitespace on both sides and no whitespace at its ends |
| Text.BlankIffAllSpace | frontend/src/pages/admin/quiz/create.tsx:112 | a string strips to empty exactly when it is all whitespace |
| Text.TrimIgnoresPadding | backend/quizzes/views.py:144-145 | adding whitespace on either side never changes the stripped string |
| Text.StripLowerCommute | backend/quizzes/views.py:144-145 | stripping then lower-casing equals lower-casing then stripping |
| Text.JsBlankIffTrimEmpty | frontend/src/pages/admin/quiz/create.tsx:112 | a field counts as blank on the page exactly when `trim()` empties it |
| Text.JsBlankIsPyBlank | frontend/src/pages/admin/quiz/create.tsx:120 | a string blank by JavaScript's `trim()` is also blank by Python's `strip()` |
| QuizForm.BlankMcqChoices | frontend/src/pages/admin/quiz/create.tsx:20-25 | four blank choices, exactly the first flagged correct |
| QuizForm.TrueFalseChoices | frontend/src/pages/admin/quiz/create.tsx:64-67 | the true/false choices are exactly "True" (correct) then "False" |
| QuizForm.ChoicesForType | frontend/src/pages/admin/quiz/create.tsx:62-78 | a type change leaves no choices exactly for text; otherwise exactly the first choice is correct, with four blank choices for mcq and [True, False] for true/false |
| QuizForm.EmptyQuestion | frontend/src/pages/admin/quiz/create.tsx:14-26 | a fresh question is an empty mcq with order 0 and four blank choices, exactly the first one correct |
| QuizForm.InitialForm | frontend/src/pages/admin/quiz/create.tsx:29-31 | the page opens with one question of the given id, and submitting it at once is refused for the missing title |
| QuizForm.AddQuestion | frontend/src/pages/admin/quiz/create.tsx:44-46 | adding grows the list by one, keeps every existing question and appends a fresh empty one |
| QuizForm.WithoutId | frontend/src/pages/admin/quiz/create.tsx:50 | no remaining question carries the removed id, and the list never grows |
| QuizForm.WithoutIdKeepsOthers | frontend/src/pages/admin/quiz/create.tsx:50 | a question survives the filter exactly when it was in the list and its id differs from the removed one |
| QuizForm.RemoveQuestion | frontend/src/pages/admin/quiz/create.tsx:48-52 | a list of one question is left alone; otherwise no remaining question has the removed id |
| QuizForm.WithoutAbsentId | frontend/src/pages/admin/quiz/create.tsx:50 | filtering out an id nobody has changes nothing |
| QuizForm.WithoutPresentId | frontend/src/pages/admin/quiz/create.tsx:50 | with distinct ids, filtering out question k's id deletes exactly position k |
| QuizForm.RemoveDeletesExactlyOne | frontend/src/pages/admin/quiz/create.tsx:48-52 | with distinct ids and more than one question, removing question k keeps the rest in order |
| QuizForm.RemoveUnknownIdIsNoOp | frontend/src/pages/admin/quiz/create.tsx:48-52 | removing an id that no question has changes nothing |
| QuizForm.RemoveNeverEmpties | frontend/src/pages/admin/quiz/create.tsx:48-52 | with distinct ids, removal never leaves the list empty |
| QuizForm.RemoveEmptiesWhenIdsCollide | frontend/src/pages/admin/quiz/create.tsx:49-50 | if two questions shared an id, removing it would empty the list, so the no-empty guarantee relies on distinct ids |
| QuizForm.EditQuestionFields | frontend/src/pages/admin/quiz/create.tsx:59-80 | a text or reference edit sets only that field; a type change sets the type and resets the choices for the new type; id and order never change |
| QuizForm.UpdateQuestion | frontend/src/pages/admin/quiz/create.tsx:54-83 | only questions with the edited id change, and the list keeps its length |
| QuizForm.EditChoices | frontend/src/pages/admin/quiz/create.tsx:90-99 | selecting choice i flags exactly i and keeps every text; any other edit changes only the named field of choice i; the count never changes |
| QuizForm.SelectingLeavesExactlyOne | frontend/src/pages/admin/quiz/create.tsx:92-96 | selecting an in-range choice leaves exactly one choice flagged correct |
| QuizForm.UpdateChoice | frontend/src/pages/admin/quiz/create.tsx:85-104 | only questions with the edited id change, and only in their choices |
| QuizForm.FilledChoices | frontend/src/pages/admin/quiz/create.tsx:127 | the filled choices are exactly those whose text `trim()` does not empty, each kept as often as it occurs |
| QuizForm.FilledChoicesAppend | frontend/src/pages/admin/quiz/create.tsx:127 | filtering a concatenation concatenates the filtered parts, so the kept choices keep their order |
| QuizForm.QuestionProblem | frontend/src/pages/admin/quiz/create.tsx:118-144 | each error is reported exactly under its condition and in the page's order: blank text; then an mcq with fewer than two filled choices; then an mcq with no choice flagged; then a text question with a blank answer. No error means none holds |
| QuizForm.FirstProblem | frontend/src/pages/admin/quiz/create.tsx:118-145 | no error exactly when every question is fine; any error reported is one of the questions' errors |
| QuizForm.FirstProblemIsFirst | frontend/src/pages/admin/quiz/create.tsx:118-145 | the error reported is that of the first question with a problem |
| QuizForm.Validate | frontend/src/pages/admin/quiz/create.tsx:111-145 | a blank title is reported first; otherwise the form passes exactly when every question (numbered from 1) passes, and any other error is some question's error |
| QuizForm.ValidateReportsFirst | frontend/src/pages/admin/quiz/create.tsx:118-145 | with a non-blank title, the reported error is that of the first failing question, numbered from 1 |
| QuizForm.PayloadQuestionFor | frontend/src/pages/admin/quiz/create.tsx:151-159 | a question of the body has its position as order and keeps text, type and reference; a text question sends no choices; any other sends only filled choices taken from its own |
| QuizForm.BuildPayload | frontend/src/pages/admin/quiz/create.tsx:148-160 | title and description are trimmed; question i has order i and its text and type; a text question sends no choices; other types send only the filled choices, in order |
| QuizForm.SubmitForm | frontend/src/pages/admin/quiz/create.tsx:111-162 | a payload is sent exactly when validation passes, and it is the one `BuildPayload` builds from the form; otherwise the validation error is shown |
| QuizForm.ValidatedPayloadShape | frontend/src/pages/admin/quiz/create.tsx:126-160 | after validation passes, the title is non-empty, every question text is non-blank, every mcq sends at least two choices, and every text question has a non-blank reference |
| QuizForm.InitialFormInvariant | frontend/src/pages/admin/quiz/create.tsx:31 | the page starts with one question, distinct ids, and a correct choice for every choice question |
| QuizForm.Step | frontend/src/pages/admin/quiz/create.tsx:44-104 | each action changes only its own part of the form: title and description only by their setters; adding appends one question; removal never grows the list and leaves a one-question list alone; edits keep the length and every question with another id |
| QuizForm.StepKeepsInvariant | frontend/src/pages/admin/quiz/create.tsx:44-104 | every action the page offers keeps the list non-empty and the ids distinct. Each choice question keeps its type's choice count (4 for mcq, 2 for true/false) and exactly one choice flagged |
| QuizForm.AddKeepsInvariant | frontend/src/pages/admin/quiz/create.tsx:44-46 | adding a question with a fresh id keeps the invariant |
| QuizForm.RemoveKeepsInvariant | frontend/src/pages/admin/quiz/create.tsx:48-52 | removing a question keeps the invariant |
| QuizForm.DeleteAtKeepsInvariant | frontend/src/pages/admin/quiz/create.tsx:48-52 | deleting one position from a list of more than one keeps the invariant |
| QuizForm.EditQuestionKeepsInvariant | frontend/src/pages/admin/quiz/create.tsx:54-83 | editing a question's text, type or reference keeps the invariant |
| QuizForm.EditChoiceKeepsInvariant | frontend/src/pages/admin/quiz/create.tsx:85-104 | choice edits the page offers (text of an mcq choice, or selecting a choice) keep the invariant |
| QuizForm.EditChoiceKeepsShape | frontend/src/pages/admin/quiz/create.tsx:90-99 | such an edit keeps a question's choice shape and its single correct choice |
| QuizForm.PageRunKeepsInvariant | frontend/src/pages/admin/quiz/create.tsx:28-104 | any run of page actions from a form that meets the invariant ends in a form that still meets it |
| QuizForm.PageNeverMissesCorrectChoice | frontend/src/pages/admin/quiz/create.tsx:133-137 | on a form reached through the page, the "needs a correct answer" check for mcq never fires |
| QuizForm.BlankKeyFormReachable | frontend/src/pages/admin/quiz/create.tsx:14-104 | four page actions lead from the initial form to a quiz whose correct choice is the blank first one |
| QuizForm.BlankCorrectChoiceSlipsThrough | frontend/src/pages/admin/quiz/create.tsx:126-158 | that reachable form passes validation, yet its payload's mcq has choices "a" and "b" with neither flagged correct |
| QuizForm.NoCorrectChoiceNoCorrectAnswer | backend/quizzes/views.py:135-140 | on a choice question with no choice flagged correct, no answer is judged correct |
| QuizForm.QuestionProblemIntended | frontend/src/pages/admin/quiz/create.tsx:126-137 | a question passes exactly when it passes the page's check and, for mcq, some filled choice is flagged correct |
| QuizForm.ValidateIntended | frontend/src/pages/admin/quiz/create.tsx:111-145 | passing implies passing the page's check; the form passes exactly when it passes that check and every mcq has a filled choice flagged correct |
| QuizForm.SubmitFormIntended | frontend/src/pages/admin/quiz/create.tsx:106-160 | the payload is the page's payload, and every mcq in it sends a choice flagged correct |
| QuizForm.IntendedCheckRejectsBlankKey | frontend/src/pages/admin/quiz/create.tsx:133 | the intended check refuses the blank-key form, pointing at question 1 |
| QuizForm.RequestFor | frontend/src/pages/admin/quiz/create.tsx:148-160 | the request carries the payload's title and description and every payload question in order, with its text, type code, order, reference and choices |
| QuizForm.StoredFlagsMatchPayload | backend/quizzes/views.py:82-87 | an mcq created from a page payload stores the sent choices with their flags |
| QuizForm.IntendedFormStoresAnswerableQuestions | backend/quizzes/views.py:63-87 | with the intended check, every mcq the backend stores from the page has a choice flagged correct |

## Left out

- HTTP and DRF plumbing is not modelled: request parsing, `Response` bodies, status codes and the per-field error messages. Every validation failure is one `Invalid` error, and every 404 is a `SubmitError` naming what was missing.
- Persistence is not modelled: primary-key assignment, `created_at` and `submitted_at`, and ordering questions by `order` on retrieval. A stored quiz is a value, and its question list is taken as given.
- The partial write on a failed submission is not modelled. The submission row is created before the answer loop, so a 404 part-way leaves a row and the earlier answers stored. That is a database side effect, and the model returns only the error.
- Models.Percentage: does not model the rounding to one decimal place or the float type, because the value is kept as the exact rational `score * 100 / total`.
- Case folding and whitespace are ASCII only. Python's `lower` and `strip` and JavaScript's `trim` also act on non-ASCII characters, and Unicode tables are outside the model.
- The quiz list, detail, public-retrieve and analytics views are not modelled. They are framework wiring or filter by the logged-in user, and the analytics bodies are not part of this model. Authentication and sessions are left out for the same reason.
- `Quiz.__str__` and `Question.__str__` are not modelled. They are display strings with no logic; only the submission's label is modelled, as `Models.SubmissionLabel`.
- The display names of the question types (models.py:24-28) are not modelled. No behaviour depends on them.
- Serializers.ValidateQuizWith: a JSON `null` for an optional creation key (description, order, reference answer, choices, a choice's `is_correct`) is not representable in the creation input, which models only omitted or sent keys; DRF refuses such a `null`.
- `Serializers.ValidateChoices` and the other validators do not model DRF's coercions, such as strings to integers or "true" to booleans. The model takes values already of the field's type.
- The page's network call, success screen, login redirect, `isSubmitting` flag and rendering are not modelled. These are I/O and presentation.
- The browser's `required` attributes on the title, question text and text-answer inputs are not modelled. They block only an empty field, which the page's own `trim()` check also rejects.
- QuizForm.EditChoices: an index past the end of the choices is handled as `QuizForm.UpdateChoice` handles it (next line). The contract speaks only of the in-range indices the page issues.
- QuizForm.UpdateChoice: with an index past the end of the choices, JavaScript would grow the array. The model leaves the choices unchanged instead. The page offers no control that produces such an index, and `PageAllows` never issues one.
- QuizForm.PageAllows restricts runs to what the rendered page can do:
  - an added question gets a fresh id;
  - a reference-answer edit targets a text question;
  - choice text is edited only for mcq, since true/false renders only radio buttons;
  - a choice is flagged only by selecting it, because the radio buttons never send `false`.

## Findings

| source | as written | input that shows it | evidently intended | confidence | as-written member | corrected member |
|---|---|---|---|---|---|---|
| frontend/src/pages/admin/quiz/create.tsx:133 | the correct-answer check looks at all choices, but the payload (line 157) sends only the filled ones | the initial question with text "Q", the first choice (flagged correct) left blank, and choices 2 and 3 set to "a" and "b": it passes validation and sends an mcq with no correct choice, which nobody can answer correctly | an mcq must have a filled choice flagged correct | high; not executed | QuizForm.BlankCorrectChoiceSlipsThrough | QuizForm.SubmitFormIntended |
| backend/quizzes/views.py:127-148 | every answer is scored, even when its question id repeats an earlier one | quiz 1 with one true/false question 10; the submission answers question 10 twice with the correct choice 100: score 2 out of 1, 200 percent | each question counts at most once, so the score is at most the question count | high; not executed | Views.RepeatedAnswerInflatesScore | Views.SubmitIntended |
| backend/quizzes/views.py:68 | `q_data.get('order', idx)` never falls back to `idx`, because `order = IntegerField(default=0)` (serializers.py:94) already filled the key with 0 | a creation request whose second question omits `order`: it is stored with order 0 instead of 1 | an omitted order becomes the question's position | medium; not executed | Views.OmittedOrderBecomesZero | Views.CreateQuizIntended |

=== FILE: models.dfy ===
/** The persisted entities of the quiz backend: quizzes, questions, choices,
    submissions and answers, with the model-level defaults and derived values. */
module Models {
  import opened Wrappers

  /** The three kinds of question a quiz can hold. */
  datatype QuestionType = Mcq | TrueFalse | Text {

    /** The value stored in the `question_type` column. */
    function Code(): string {
      match this
      case Mcq => "mcq"
      case TrueFalse => "true_false"
      case Text => "text"
    }

    /** Questions answered by picking one of their choices. */
    predicate HasChoices() {
      Mcq? || TrueFalse?
    }
  }

  /** Reads a stored or submitted type code; anything outside the three codes
      is rejected. */
  function ParseQuestionType(code: string): (r: Option<QuestionType>)
    ensures r.Some? <==> code in {"mcq", "true_false", "text"}
    ensures r.Some? ==> r.value.Code() == code
  {
    if code == "mcq" then Some(Mcq)
    else if code == "true_false" then Some(TrueFalse)
    else if code == "text" then Some(Text)
    else None
  }

  /** Every question type survives a trip through its stored code. */
  lemma QuestionTypeCodeRoundTrip(t: QuestionType)
    ensures ParseQuestionType(t.Code()) == Some(t)
  {
  }

  /** Distinct types are stored under distinct codes. */
  lemma QuestionTypeCodeInjective(s: QuestionType, t: QuestionType)
    ensures s.Code() == t.Code() ==> s == t
  {
    QuestionTypeCodeRoundTrip(s);
    QuestionTypeCodeRoundTrip(t);
  }

  /** The database defaults for the columns that have one. */
  const DefaultOrder: int := 0
  const DefaultIsCorrect: bool := false

  datatype Choice = Choice(id: int, text: string, isCorrect: bool)

  /** A stored question. `choices` are listed in primary-key order, which is
      the order in which they were created. */
  datatype Question = Question(
    id: int,
    text: string,
    qtype: QuestionType,
    order: int,
    correctText: Option<string>,
    choices: seq<Choice>)

  datatype Quiz = Quiz(
    id: int,
    title: string,
    description: Option<string>,
    questions: seq<Question>)

  /** One stored answer. It refers to its question and to the selected
      choice, if any; the correctness verdict is computed at submit time. */
  datatype AnswerRecord = AnswerRecord(
    question: Question,
    selectedChoice: Option<Choice>,
    textAnswer: string,
    isCorrect: bool)

  /** One completed attempt at a quiz. */
  datatype Submission = Submission(
    quiz: Quiz,
    takerName: Option<string>,
    score: int,
    totalQuestions: int,
    answers: seq<AnswerRecord>)

  /** The score as a percentage of the question count, as an exact rational;
      a quiz without questions scores 0. */
  function Percentage(score: int, totalQuestions: int): (r: real)
    ensures totalQuestions == 0 ==> r == 0.0
    ensures totalQuestions > 0 && score == totalQuestions ==> r == 100.0
    ensures 0 <= score <= totalQuestions ==> 0.0 <= r <= 100.0
    ensures totalQuestions > 0 && score > totalQuestions ==> r > 100.0
  {
    if totalQuestions == 0 then 0.0
    else (score as real / totalQuestions as real) * 100.0
  }

  /** For a fixed positive question count, more correct answers never give a
      lower percentage. */
  lemma PercentageMonotonic(s1: int, s2: int, total: int)
    requires total > 0 && s1 <= s2
    ensures Percentage(s1, total) <= Percentage(s2, total)
  {
    var t := total as real;
    assert s1 as real / t <= s2 as real / t by {
      assert s2 as real / t - s1 as real / t == (s2 - s1) as real / t;
    }
  }

  /** The `percentage` property of a submission. */
  function SubmissionPercentage(s: Submission): real {
    Percentage(s.score, s.totalQuestions)
  }

  /** The taker's name as shown: a missing or empty name shows as "Anonymous". */
  function DisplayName(takerName: Option<string>): (r: string)
    ensures takerName.None? || takerName == Some("") ==> r == "Anonymous"
    ensures takerName.Some? && takerName.value != "" ==> r == takerName.value
    ensures r != ""
  {
    match takerName
    case Some(name) => if name != "" then name else "Anonymous"
    case None => "Anonymous"
  }

  /** The number a string of decimal digits denotes, read most significant
      digit first. */
  function DigitsValue(s: string): int {
    if |s| == 0 then 0 else DigitsValue(s[..|s| - 1]) * 10 + (s[|s| - 1] as int - '0' as int)
  }

  /** The number an optionally signed string of decimal digits denotes. */
  function IntValue(s: string): int {
    if |s| > 0 && s[0] == '-' then -DigitsValue(s[1..]) else DigitsValue(s)
  }

  /** Decimal digits of a non-negative integer, most significant first, with
      no leading zero. */
  function NatDigits(n: nat): (r: string)
    ensures |r| > 0
    ensures forall i :: 0 <= i < |r| ==> '0' <= r[i] <= '9'
    ensures n == 0 ==> r == "0"
    ensures n > 0 ==> r[0] != '0'
    decreases n
  {
    var d := ['0' + (n % 10) as char];
    if n < 10 then d else NatDigits(n / 10) + d
  }

  /** The digits read back as the number they were produced from. */
  lemma {:induction false} NatDigitsValue(n: nat)
    ensures DigitsValue(NatDigits(n)) == n
    decreases n
  {
    var s := NatDigits(n);
    assert s[|s| - 1] as int - '0' as int == n % 10;
    if n >= 10 {
      NatDigitsValue(n / 10);
      assert s[..|s| - 1] == NatDigits(n / 10);
    }
  }

  /** A non-empty run of decimal digits with no leading zero, except for
      "0" itself. */
  predicate PlainDigits(t: string) {
    && |t| > 0
    && (forall i :: 0 <= i < |t| ==> '0' <= t[i] <= '9')
    && (|t| > 1 ==> t[0] != '0')
  }

  /** The form Python's `str` gives an integer: an optional minus sign, then
      plain digits, and never "-0". */
  predicate Canonical(t: string) {
    if |t| > 0 && t[0] == '-' then PlainDigits(t[1..]) && t[1..] != "0"
    else PlainDigits(t)
  }

  /** Python `str(n)` for an integer: an optional minus sign, then decimal
      digits without a leading zero, reading back as `n`. */
  function IntToString(n: int): (r: string)
    ensures Canonical(r) && IntValue(r) == n
    ensures r[0] == '-' <==> n < 0
    ensures n == 0 ==> r == "0"
  {
    if n < 0 then
      NatDigitsValue(-n);
      var r := "-" + NatDigits(-n);
      assert r[1..] == NatDigits(-n);
      r
    else
      NatDigitsValue(n);
      NatDigits(n)
  }

  /** Plain digits are exactly what `NatDigits` produces for their value. */
  lemma {:induction false} PlainDigitsAreNatDigits(t: string)
    requires PlainDigits(t)
    ensures DigitsValue(t) >= 0 && t == NatDigits(DigitsValue(t))
    decreases |t|
  {
    var d := t[|t| - 1] as int - '0' as int;
    if |t| > 1 {
      var p := t[..|t| - 1];
      assert PlainDigits(p) by {
        assert forall i :: 0 <= i < |p| ==> p[i] == t[i];
      }
      PlainDigitsAreNatDigits(p);
      var v := DigitsValue(p);
      assert v > 0 by {
        assert p[0] == t[0] != '0';
      }
      assert DigitsValue(t) == v * 10 + d;
      assert t == p + [t[|t| - 1]];
    }
  }

  /** `str` is the only canonical rendering of a number: any canonical string
      that reads back as `n` is `IntToString(n)`. */
  lemma CanonicalIsIntToString(t: string, n: int)
    requires Canonical(t) && IntValue(t) == n
    ensures t == IntToString(n)
  {
    if |t| > 0 && t[0] == '-' {
      var u := t[1..];
      PlainDigitsAreNatDigits(u);
      assert DigitsValue(u) != 0;
      assert t == "-" + u;
    } else {
      PlainDigitsAreNatDigits(t);
    }
  }

  /** The one-line description of a submission: who took which quiz and how
      they scored, e.g. "Anonymous - Capitals: 3/4". */
  function SubmissionLabel(s: Submission): (r: string)
    ensures var head := DisplayName(s.takerName) + " - " + s.quiz.title + ": ";
      && |r| > |head| && r[..|head|] == head
      && exists k :: |head| < k < |r| - 1 && r[k] == '/'
           && Canonical(r[|head|..k]) && IntValue(r[|head|..k]) == s.score
           && Canonical(r[k + 1..]) && IntValue(r[k + 1..]) == s.totalQuestions
  {
    var head := DisplayName(s.takerName) + " - " + s.quiz.title + ": ";
    var a := IntToString(s.score);
    var b := IntToString(s.totalQuestions);
    var r := head + a + "/" + b;
    assert r[..|head|] == head;
    assert r[|head|..|head| + |a|] == a;
    assert r[|head| + |a|] == '/';
    assert r[|head| + |a| + 1..] == b;
    r
  }
}

=== FILE: quiz_form.dfy ===
/** The quiz-builder form: the draft questions an administrator edits, the
    list operations behind its buttons and inputs, the first-failure check run
    on submit, and the request body sent to the backend. */
module QuizForm {
  import opened Wrappers
  import opened Text
  import opened Models
  import opened Serializers
  import opened Views

  /** Client-side identifier of a draft question (a random UUID in the page),
      used only to tell drafts apart. */
  type TempId = nat

  datatype DraftChoice = DraftChoice(text: string, isCorrect: bool)

  datatype DraftQuestion = DraftQuestion(
    tempId: TempId,
    text: string,
    qtype: QuestionType,
    order: int,
    correctText: string,
    choices: seq<DraftChoice>)

  datatype FormState = FormState(title: string, description: string, questions: seq<DraftQuestion>)

  /** Choice `k` is the only one flagged correct. */
  predicate CorrectOnlyAt(cs: seq<DraftChoice>, k: int) {
    forall j :: 0 <= j < |cs| ==> (cs[j].isCorrect <==> j == k)
  }

  /** Exactly one choice is flagged correct. */
  predicate ExactlyOneCorrect(cs: seq<DraftChoice>) {
    exists k :: 0 <= k < |cs| && CorrectOnlyAt(cs, k)
  }

  /** Some choice is flagged correct. */
  predicate SomeCorrect(cs: seq<DraftChoice>) {
    exists k :: 0 <= k < |cs| && cs[k].isCorrect
  }

  // ---------------------------------------------------------------------------
  // Fresh drafts
  // ---------------------------------------------------------------------------

  /** Four blank choices, the first one flagged correct. */
  function BlankMcqChoices(): (r: seq<DraftChoice>)
    ensures |r| == 4
    ensures forall i :: 0 <= i < 4 ==> r[i].text == "" && (r[i].isCorrect <==> i == 0)
  {
    [DraftChoice("", true), DraftChoice("", false), DraftChoice("", false), DraftChoice("", false)]
  }

  /** "True" flagged correct, then "False". */
  function TrueFalseChoices(): (r: seq<DraftChoice>)
    ensures |r| == 2 && r[0] == DraftChoice("True", true) && r[1] == DraftChoice("False", false)
  {
    [DraftChoice("True", true), DraftChoice("False", false)]
  }

  /** The choices a question is given when its type is (re)selected. */
  function ChoicesForType(t: QuestionType): (r: seq<DraftChoice>)
    ensures t == Text <==> r == []
    ensures t != Text ==> |r| > 0 && CorrectOnlyAt(r, 0) && ExactlyOneCorrect(r)
    ensures t == Mcq ==> |r| == 4 && forall i :: 0 <= i < 4 ==> r[i].text == ""
    ensures t == TrueFalse ==> r == [DraftChoice("True", true), DraftChoice("False", false)]
  {
    match t
    case TrueFalse =>
      assert CorrectOnlyAt(TrueFalseChoices(), 0);
      TrueFalseChoices()
    case Mcq =>
      assert CorrectOnlyAt(BlankMcqChoices(), 0);
      BlankMcqChoices()
    case Text => []
  }

  /** A new blank multiple-choice draft. */
  function EmptyQuestion(id: TempId): (r: DraftQuestion)
    ensures r.tempId == id && r.qtype == Mcq && r.text == "" && r.correctText == "" && r.order == 0
    ensures |r.choices| == 4
    ensures forall i :: 0 <= i < 4 ==> r.choices[i].text == "" && (r.choices[i].isCorrect <==> i == 0)
  {
    DraftQuestion(id, "", Mcq, 0, "", BlankMcqChoices())
  }

  /** The page opens with an empty title and one blank question, so
      submitting it straight away is refused for the missing title. */
  function InitialForm(id: TempId): (r: FormState)
    ensures |r.questions| == 1 && r.questions[0].tempId == id
    ensures Validate(r) == Some(TitleRequired)
  {
    FormState("", "", [EmptyQuestion(id)])
  }

  // ---------------------------------------------------------------------------
  // List operations
  // ---------------------------------------------------------------------------

  predicate DistinctTempIds(qs: seq<DraftQuestion>) {
    forall i, j :: 0 <= i < j < |qs| ==> qs[i].tempId != qs[j].tempId
  }

  /** Appends a blank draft; the drafts already there are untouched. */
  function AddQuestion(qs: seq<DraftQuestion>, newId: TempId): (r: seq<DraftQuestion>)
    ensures |r| == |qs| + 1
    ensures r[..|qs|] == qs
    ensures r[|qs|] == EmptyQuestion(newId)
  {
    qs + [EmptyQuestion(newId)]
  }

  /** The drafts whose id differs from `id`, in their original order. */
  function WithoutId(qs: seq<DraftQuestion>, id: TempId): (r: seq<DraftQuestion>)
    ensures |r| <= |qs|
    ensures forall i :: 0 <= i < |r| ==> r[i].tempId != id
  {
    if |qs| == 0 then []
    else if qs[0].tempId == id then WithoutId(qs[1..], id)
    else [qs[0]] + WithoutId(qs[1..], id)
  }

  /** The filter keeps exactly the drafts whose id differs. */
  lemma {:induction false} WithoutIdKeepsOthers(qs: seq<DraftQuestion>, id: TempId)
    ensures forall q :: q in WithoutId(qs, id) <==> q in qs && q.tempId != id
  {
    if |qs| > 0 {
      WithoutIdKeepsOthers(qs[1..], id);
      assert forall q :: q in qs <==> q == qs[0] || q in qs[1..];
    }
  }

  /** The remove button: drops the drafts with that id, unless only one draft
      is left. */
  function RemoveQuestion(qs: seq<DraftQuestion>, id: TempId): (r: seq<DraftQuestion>)
    ensures |qs| <= 1 ==> r == qs
    ensures |qs| > 1 ==> forall i :: 0 <= i < |r| ==> r[i].tempId != id
  {
    if |qs| > 1 then WithoutId(qs, id) else qs
  }

  lemma {:induction false} WithoutAbsentId(qs: seq<DraftQuestion>, id: TempId)
    requires forall i :: 0 <= i < |qs| ==> qs[i].tempId != id
    ensures WithoutId(qs, id) == qs
  {
    if |qs| > 0 {
      WithoutAbsentId(qs[1..], id);
    }
  }

  lemma {:induction false} WithoutPresentId(qs: seq<DraftQuestion>, k: nat)
    requires k < |qs| && DistinctTempIds(qs)
    ensures WithoutId(qs, qs[k].tempId) == qs[..k] + qs[k + 1..]
  {
    var id := qs[k].tempId;
    var tail := qs[1..];
    if k == 0 {
      forall i | 0 <= i < |tail| ensures tail[i].tempId != id {
        assert tail[i] == qs[i + 1];
      }
      WithoutAbsentId(tail, id);
      assert qs[..k] + qs[k + 1..] == tail;
    } else {
      assert qs[0].tempId != id;
      assert WithoutId(qs, id) == [qs[0]] + WithoutId(tail, id);
      DistinctTail(qs);
      assert tail[k - 1] == qs[k];
      WithoutPresentId(tail, k - 1);
      assert tail[..k - 1] == qs[1..k] && tail[k..] == qs[k + 1..];
      assert qs[..k] == [qs[0]] + qs[1..k];
    }
  }

  lemma DistinctTail(qs: seq<DraftQuestion>)
    requires |qs| > 0 && DistinctTempIds(qs)
    ensures DistinctTempIds(qs[1..])
  {
    var tail := qs[1..];
    forall i, j | 0 <= i < j < |tail| ensures tail[i].tempId != tail[j].tempId {
      assert tail[i] == qs[i + 1] && tail[j] == qs[j + 1];
    }
  }

  /** With distinct ids and more than one draft, removing a draft deletes
      exactly that entry and keeps the others in order. */
  lemma RemoveDeletesExactlyOne(qs: seq<DraftQuestion>, k: nat)
    requires k < |qs| && |qs| > 1 && DistinctTempIds(qs)
    ensures RemoveQuestion(qs, qs[k].tempId) == qs[..k] + qs[k + 1..]
  {
    WithoutPresentId(qs, k);
  }

  /** Removing an id no draft carries changes nothing. */
  lemma RemoveUnknownIdIsNoOp(qs: seq<DraftQuestion>, id: TempId)
    requires forall i :: 0 <= i < |qs| ==> qs[i].tempId != id
    ensures RemoveQuestion(qs, id) == qs
  {
    WithoutAbsentId(qs, id);
  }

  /** With distinct ids, removal never leaves the form without a question. */
  lemma RemoveNeverEmpties(qs: seq<DraftQuestion>, id: TempId)
    requires |qs| >= 1 && DistinctTempIds(qs)
    ensures |RemoveQuestion(qs, id)| >= 1
  {
    if |qs| > 1 {
      if k :| 0 <= k < |qs| && qs[k].tempId == id {
        RemoveDeletesExactlyOne(qs, k);
      } else {
        RemoveUnknownIdIsNoOp(qs, id);
      }
    }
  }

  /** The guard counts drafts, not distinct ids: two drafts sharing an id are
      removed together and the form is left empty. */
  lemma RemoveEmptiesWhenIdsCollide(q: DraftQuestion)
    ensures RemoveQuestion([q, q], q.tempId) == []
  {
    assert [q, q][1..] == [q];
    assert [q][1..] == [];
    assert WithoutId([q], q.tempId) == WithoutId([], q.tempId) == [];
  }

  /** An edit made through a question's inputs. */
  datatype QuestionEdit =
    | EditText(text: string)
    | EditType(qtype: QuestionType)
    | EditCorrectText(text: string)

  /** One draft after an edit. Selecting a type, even the current one, resets
      the choices to that type's defaults. */
  function EditQuestionFields(q: DraftQuestion, e: QuestionEdit): (r: DraftQuestion)
    ensures r.tempId == q.tempId && r.order == q.order
    ensures e.EditText? ==> r == q.(text := e.text)
    ensures e.EditCorrectText? ==> r == q.(correctText := e.text)
    ensures e.EditType? ==>
      && r.qtype == e.qtype && r.text == q.text && r.correctText == q.correctText
      && (e.qtype == TrueFalse ==> r.choices == [DraftChoice("True", true), DraftChoice("False", false)])
      && (e.qtype == Mcq ==> r.choices == BlankMcqChoices())
      && (e.qtype == Text ==> r.choices == [])
  {
    match e
    case EditText(t) => q.(text := t)
    case EditCorrectText(t) => q.(correctText := t)
    case EditType(t) => q.(qtype := t, choices := ChoicesForType(t))
  }

  /** Applies an edit to the drafts carrying `id`; every other draft is
      unchanged. */
  function UpdateQuestion(qs: seq<DraftQuestion>, id: TempId, e: QuestionEdit): (r: seq<DraftQuestion>)
    ensures |r| == |qs|
    ensures forall i :: 0 <= i < |qs| && qs[i].tempId != id ==> r[i] == qs[i]
    ensures forall i :: 0 <= i < |qs| && qs[i].tempId == id ==> r[i] == EditQuestionFields(qs[i], e)
  {
    seq(|qs|, i requires 0 <= i < |qs| =>
      if qs[i].tempId == id then EditQuestionFields(qs[i], e) else qs[i])
  }

  /** An edit made through a choice's inputs. */
  datatype ChoiceEdit =
    | EditChoiceText(text: string)
    | EditChoiceCorrect(flag: bool)

  /** The choices after editing choice `index`. Flagging a choice correct
      unflags all the others; any other edit changes only that one field of
      that one choice. */
  function EditChoices(cs: seq<DraftChoice>, index: nat, e: ChoiceEdit): (r: seq<DraftChoice>)
    ensures |r| == |cs|
    ensures e == EditChoiceCorrect(true) ==>
      forall j :: 0 <= j < |cs| ==> r[j].text == cs[j].text && (r[j].isCorrect <==> j == index)
    ensures e != EditChoiceCorrect(true) ==> forall j :: 0 <= j < |cs| && j != index ==> r[j] == cs[j]
    ensures e.EditChoiceText? && index < |cs| ==> r[index] == cs[index].(text := e.text)
    ensures e == EditChoiceCorrect(false) && index < |cs| ==> r[index] == cs[index].(isCorrect := false)
  {
    if e == EditChoiceCorrect(true) then
      seq(|cs|, j requires 0 <= j < |cs| => cs[j].(isCorrect := j == index))
    else if index < |cs| then
      match e
      case EditChoiceText(t) => cs[index := cs[index].(text := t)]
      case EditChoiceCorrect(b) => cs[index := cs[index].(isCorrect := b)]
    else cs
  }

  /** Selecting a choice in range leaves exactly that choice correct. */
  lemma SelectingLeavesExactlyOne(cs: seq<DraftChoice>, index: nat)
    requires index < |cs|
    ensures ExactlyOneCorrect(EditChoices(cs, index, EditChoiceCorrect(true)))
  {
    assert CorrectOnlyAt(EditChoices(cs, index, EditChoiceCorrect(true)), index);
  }

  function UpdateChoice(qs: seq<DraftQuestion>, id: TempId, index: nat, e: ChoiceEdit): (r: seq<DraftQuestion>)
    ensures |r| == |qs|
    ensures forall i :: 0 <= i < |qs| && qs[i].tempId != id ==> r[i] == qs[i]
    ensures forall i :: 0 <= i < |qs| && qs[i].tempId == id ==>
      r[i] == qs[i].(choices := EditChoices(qs[i].choices, index, e))
  {
    seq(|qs|, i requires 0 <= i < |qs| =>
      if qs[i].tempId == id then qs[i].(choices := EditChoices(qs[i].choices, index, e)) else qs[i])
  }

  // ---------------------------------------------------------------------------
  // Validation on submit
  // ---------------------------------------------------------------------------

  /** The first problem found, with questions numbered from 1. */
  datatype FormError =
    | TitleRequired
    | QuestionEmpty(n: nat)
    | TooFewChoices(n: nat)
    | MissingCorrectChoice(n: nat)
    | MissingTextAnswer(n: nat)

  /** The choices whose text is not blank, in order. */
  function FilledChoices(cs: seq<DraftChoice>): (r: seq<DraftChoice>)
    ensures |r| <= |cs|
    ensures forall i :: 0 <= i < |r| ==> !JsBlank(r[i].text)
    ensures forall i :: 0 <= i < |r| ==> r[i] in cs
    ensures forall c :: c in cs && !JsBlank(c.text) ==> c in r
    ensures forall c {:trigger multiset(r)[c]} :: multiset(r)[c] == if JsBlank(c.text) then 0 else multiset(cs)[c]
  {
    if |cs| == 0 then []
    else
      assert cs == [cs[0]] + cs[1..];
      var rest := FilledChoices(cs[1..]);
      if JsBlank(cs[0].text) then rest
      else
        assert multiset([cs[0]] + rest) == multiset([cs[0]]) + multiset(rest);
        [cs[0]] + rest
  }

  /** Filtering distributes over concatenation, so the kept choices stay in
      their original order. */
  lemma {:induction false} FilledChoicesAppend(a: seq<DraftChoice>, b: seq<DraftChoice>)
    ensures FilledChoices(a + b) == FilledChoices(a) + FilledChoices(b)
  {
    if |a| == 0 {
      assert a + b == b;
    } else {
      assert (a + b)[1..] == a[1..] + b;
      FilledChoicesAppend(a[1..], b);
    }
  }

  /** The checks run on one draft, in the page's order. */
  function QuestionProblem(q: DraftQuestion, n: nat): (r: Option<FormError>)
    ensures r == Some(QuestionEmpty(n)) <==> JsBlank(q.text)
    ensures r == Some(TooFewChoices(n)) <==>
      !JsBlank(q.text) && q.qtype == Mcq && |FilledChoices(q.choices)| < 2
    ensures r == Some(MissingCorrectChoice(n)) <==>
      !JsBlank(q.text) && q.qtype == Mcq && |FilledChoices(q.choices)| >= 2 && !SomeCorrect(q.choices)
    ensures r == Some(MissingTextAnswer(n)) <==> !JsBlank(q.text) && q.qtype == Text && JsBlank(q.correctText)
    ensures r.None? <==>
      && !JsBlank(q.text)
      && (q.qtype == Mcq ==> |FilledChoices(q.choices)| >= 2 && SomeCorrect(q.choices))
      && (q.qtype == Text ==> !JsBlank(q.correctText))
    ensures r.Some? ==> r.value.n == n
  {
    if JsBlank(q.text) then Some(QuestionEmpty(n))
    else if q.qtype == Mcq && |FilledChoices(q.choices)| < 2 then Some(TooFewChoices(n))
    else if q.qtype == Mcq && !SomeCorrect(q.choices) then Some(MissingCorrectChoice(n))
    else if q.qtype == Text && JsBlank(q.correctText) then Some(MissingTextAnswer(n))
    else None
  }

  /** The first problem in a list of per-question results. */
  function FirstProblem(ps: seq<Option<FormError>>): (r: Option<FormError>)
    ensures r.None? <==> forall i :: 0 <= i < |ps| ==> ps[i].None?
    ensures r.Some? ==> r in ps
  {
    if |ps| == 0 then None
    else if ps[0].Some? then ps[0]
    else
      var rest := FirstProblem(ps[1..]);
      assert forall i :: 1 <= i < |ps| ==> ps[i] == ps[1..][i - 1];
      rest
  }

  /** The problem reported is the one at the first position that has one. */
  lemma {:induction false} FirstProblemIsFirst(ps: seq<Option<FormError>>, k: nat)
    requires k < |ps| && ps[k].Some?
    requires forall j :: 0 <= j < k ==> ps[j].None?
    ensures FirstProblem(ps) == ps[k]
  {
    if k > 0 {
      assert ps[1..][k - 1] == ps[k];
      FirstProblemIsFirst(ps[1..], k - 1);
    }
  }

  /** The result of each draft's checks, questions numbered from 1. */
  function Problems(qs: seq<DraftQuestion>): (r: seq<Option<FormError>>)
    ensures |r| == |qs| && forall i :: 0 <= i < |qs| ==> r[i] == QuestionProblem(qs[i], i + 1)
  {
    seq(|qs|, i requires 0 <= i < |qs| => QuestionProblem(qs[i], i + 1))
  }

  /** The page's check on submit: the title first, then each question in
      order; the first failure is reported. */
  function Validate(form: FormState): (r: Option<FormError>)
    ensures JsBlank(form.title) ==> r == Some(TitleRequired)
    ensures r.None? <==>
      !JsBlank(form.title) && forall i :: 0 <= i < |form.questions| ==> QuestionProblem(form.questions[i], i + 1).None?
    ensures r.Some? && r != Some(TitleRequired) ==>
      exists i :: 0 <= i < |form.questions| && r == QuestionProblem(form.questions[i], i + 1)
  {
    if JsBlank(form.title) then Some(TitleRequired) else FirstProblem(Problems(form.questions))
  }

  /** With a title, the error shown is that of the first faulty question. */
  lemma ValidateReportsFirst(form: FormState, k: nat)
    requires !JsBlank(form.title) && k < |form.questions|
    requires QuestionProblem(form.questions[k], k + 1).Some?
    requires forall j :: 0 <= j < k ==> QuestionProblem(form.questions[j], j + 1).None?
    ensures Validate(form) == QuestionProblem(form.questions[k], k + 1)
  {
    FirstProblemIsFirst(Problems(form.questions), k);
  }

  // ---------------------------------------------------------------------------
  // The request body
  // ---------------------------------------------------------------------------

  datatype PayloadQuestion = PayloadQuestion(
    text: string,
    qtype: QuestionType,
    order: int,
    correctText: string,
    choices: seq<DraftChoice>)

  datatype QuizPayload = QuizPayload(title: string, description: string, questions: seq<PayloadQuestion>)

  /** One question of the body: numbered by its position, a text question
      without choices, any other question with its filled choices only. */
  function PayloadQuestionFor(idx: nat, q: DraftQuestion): (r: PayloadQuestion)
    ensures r.order == idx && r.text == q.text && r.qtype == q.qtype && r.correctText == q.correctText
    ensures q.qtype == Text ==> r.choices == []
    ensures q.qtype != Text ==>
      && |r.choices| <= |q.choices|
      && forall i :: 0 <= i < |r.choices| ==> !JsBlank(r.choices[i].text) && r.choices[i] in q.choices
  {
    PayloadQuestion(q.text, q.qtype, idx, q.correctText,
      if q.qtype != Text then FilledChoices(q.choices) else [])
  }

  /** The body sent to the backend: trimmed title and description, each
      question numbered by its position, text questions without choices and
      other questions with their blank choices dropped. */
  function BuildPayload(form: FormState): (r: QuizPayload)
    ensures r.title == JsTrim(form.title) && r.description == JsTrim(form.description)
    ensures |r.questions| == |form.questions|
    ensures forall i :: 0 <= i < |form.questions| ==>
      && r.questions[i].order == i
      && r.questions[i].text == form.questions[i].text
      && r.questions[i].qtype == form.questions[i].qtype
      && r.questions[i].correctText == form.questions[i].correctText
      && (form.questions[i].qtype == Text ==> r.questions[i].choices == [])
      && (form.questions[i].qtype != Text ==> r.questions[i].choices == FilledChoices(form.questions[i].choices))
  {
    QuizPayload(JsTrim(form.title), JsTrim(form.description),
      seq(|form.questions|, i requires 0 <= i < |form.questions| => PayloadQuestionFor(i, form.questions[i])))
  }

  /** Submitting the form: validation, then the body to send. */
  function SubmitForm(form: FormState): (r: Result<QuizPayload, FormError>)
    ensures r.Success? <==> Validate(form).None?
    ensures r.Failure? ==> Some(r.error) == Validate(form)
    ensures r.Success? ==> r.value == BuildPayload(form)
  {
    match Validate(form)
    case Some(e) => Failure(e)
    case None => Success(BuildPayload(form))
  }

  /** What validation guarantees about the body: a non-blank title, non-blank
      question texts, at least two choices for every multiple-choice question
      and a non-blank reference for every text question. */
  lemma ValidatedPayloadShape(form: FormState)
    requires Validate(form).None?
    ensures BuildPayload(form).title != ""
    ensures var p := BuildPayload(form);
      forall i :: 0 <= i < |p.questions| ==>
        && !JsBlank(p.questions[i].text)
        && (p.questions[i].qtype == Mcq ==> |p.questions[i].choices| >= 2)
        && (p.questions[i].qtype == Text ==> !JsBlank(p.questions[i].correctText))
  {
    JsBlankIffTrimEmpty(form.title);
    var p := BuildPayload(form);
    forall i | 0 <= i < |p.questions|
      ensures !JsBlank(p.questions[i].text)
      ensures p.questions[i].qtype == Mcq ==> |p.questions[i].choices| >= 2
      ensures p.questions[i].qtype == Text ==> !JsBlank(p.questions[i].correctText)
    {
      assert QuestionProblem(form.questions[i], i + 1).None?;
    }
  }

  // ---------------------------------------------------------------------------
  // A multiple-choice question can be submitted without a correct choice
  // ---------------------------------------------------------------------------

  /** Everything the user can do on the page. */
  datatype Action =
    | SetTitle(title: string)
    | SetDescription(description: string)
    | Add(newId: TempId)
    | Remove(id: TempId)
    | EditQuestion(id: TempId, edit: QuestionEdit)
    | EditChoice(id: TempId, index: nat, choiceEdit: ChoiceEdit)

  /** The state after one action: each action touches only its own part of
      the form. */
  function Step(form: FormState, a: Action): (r: FormState)
    ensures !a.SetTitle? ==> r.title == form.title
    ensures !a.SetDescription? ==> r.description == form.description
    ensures a.SetTitle? || a.SetDescription? ==> r.questions == form.questions
    ensures a.Add? ==>
      |r.questions| == |form.questions| + 1 && r.questions[..|form.questions|] == form.questions
    ensures a.Remove? ==> |r.questions| <= |form.questions| && (|form.questions| <= 1 ==> r == form)
    ensures a.EditQuestion? || a.EditChoice? ==>
      && |r.questions| == |form.questions|
      && forall i :: 0 <= i < |form.questions| && form.questions[i].tempId != a.id ==>
           r.questions[i] == form.questions[i]
  {
    match a
    case SetTitle(t) => form.(title := t)
    case SetDescription(d) => form.(description := d)
    case Add(newId) => form.(questions := AddQuestion(form.questions, newId))
    case Remove(id) => form.(questions := RemoveQuestion(form.questions, id))
    case EditQuestion(id, e) => form.(questions := UpdateQuestion(form.questions, id, e))
    case EditChoice(id, i, e) => form.(questions := UpdateChoice(form.questions, id, i, e))
  }

  /** What the rendered page can actually issue: new drafts get unused ids;
      the reference-answer input is shown only for text questions; a choice
      is edited only through the radio button or text input rendered for it,
      the text input only for multiple-choice questions; a radio button only
      ever selects. */
  predicate PageAllows(form: FormState, a: Action) {
    match a
    case Add(newId) => forall i :: 0 <= i < |form.questions| ==> form.questions[i].tempId != newId
    case EditQuestion(id, e) =>
      e.EditCorrectText? ==>
        forall i :: 0 <= i < |form.questions| && form.questions[i].tempId == id ==> form.questions[i].qtype == Text
    case EditChoice(id, index, e) =>
      && e != EditChoiceCorrect(false)
      && forall i :: 0 <= i < |form.questions| && form.questions[i].tempId == id ==>
           index < |form.questions[i].choices| && (e.EditChoiceText? ==> form.questions[i].qtype == Mcq)
    case _ => true
  }

  function Run(form: FormState, actions: seq<Action>): FormState
    decreases |actions|
  {
    if |actions| == 0 then form else Run(Step(form, actions[0]), actions[1..])
  }

  predicate PageRun(form: FormState, actions: seq<Action>)
    decreases |actions|
  {
    |actions| == 0 || (PageAllows(form, actions[0]) && PageRun(Step(form, actions[0]), actions[1..]))
  }

  /** The shape every draft keeps while edited through the page. */
  predicate WellShaped(q: DraftQuestion) {
    && (q.qtype == Text ==> q.choices == [])
    && (q.qtype == Mcq ==> |q.choices| == 4)
    && (q.qtype == TrueFalse ==> |q.choices| == 2)
    && (q.qtype != Text ==> ExactlyOneCorrect(q.choices))
  }

  predicate FormInvariant(form: FormState) {
    && |form.questions| >= 1
    && DistinctTempIds(form.questions)
    && forall i :: 0 <= i < |form.questions| ==> WellShaped(form.questions[i])
  }

  lemma InitialFormInvariant(id: TempId)
    ensures FormInvariant(InitialForm(id))
  {
    assert CorrectOnlyAt(BlankMcqChoices(), 0);
  }

  lemma StepKeepsInvariant(form: FormState, a: Action)
    requires FormInvariant(form) && PageAllows(form, a)
    ensures FormInvariant(Step(form, a))
  {
    match a
    case SetTitle(_) =>
    case SetDescription(_) =>
    case Add(newId) => AddKeepsInvariant(form.questions, newId);
    case Remove(id) => RemoveKeepsInvariant(form.questions, id);
    case EditQuestion(id, e) => EditQuestionKeepsInvariant(form.questions, id, e);
    case EditChoice(id, index, e) => EditChoiceKeepsInvariant(form.questions, id, index, e);
  }

  predicate InvariantOn(qs: seq<DraftQuestion>) {
    FormInvariant(FormState("", "", qs))
  }

  lemma AddKeepsInvariant(qs: seq<DraftQuestion>, newId: TempId)
    requires InvariantOn(qs)
    requires forall i :: 0 <= i < |qs| ==> qs[i].tempId != newId
    ensures InvariantOn(AddQuestion(qs, newId))
  {
    InitialFormInvariant(newId);
    var qs' := AddQuestion(qs, newId);
    assert forall i :: 0 <= i < |qs| ==> qs'[i] == qs[i];
  }

  lemma RemoveKeepsInvariant(qs: seq<DraftQuestion>, id: TempId)
    requires InvariantOn(qs)
    ensures InvariantOn(RemoveQuestion(qs, id))
  {
    RemoveNeverEmpties(qs, id);
    if |qs| > 1 {
      if k :| 0 <= k < |qs| && qs[k].tempId == id {
        RemoveDeletesExactlyOne(qs, k);
        DeleteAtKeepsInvariant(qs, k);
      } else {
        RemoveUnknownIdIsNoOp(qs, id);
      }
    }
  }

  lemma DeleteAtKeepsInvariant(qs: seq<DraftQuestion>, k: nat)
    requires InvariantOn(qs) && |qs| > 1 && k < |qs|
    ensures InvariantOn(qs[..k] + qs[k + 1..])
  {
    var qs' := qs[..k] + qs[k + 1..];
    forall i | 0 <= i < |qs'| ensures qs'[i] == qs[if i < k then i else i + 1] {
    }
    forall i, j | 0 <= i < j < |qs'| ensures qs'[i].tempId != qs'[j].tempId {
      assert qs'[i] == qs[if i < k then i else i + 1];
      assert qs'[j] == qs[if j < k then j else j + 1];
    }
    forall i | 0 <= i < |qs'| ensures WellShaped(qs'[i]) {
      assert qs'[i] == qs[if i < k then i else i + 1];
    }
  }

  lemma EditQuestionKeepsInvariant(qs: seq<DraftQuestion>, id: TempId, e: QuestionEdit)
    requires InvariantOn(qs)
    ensures InvariantOn(UpdateQuestion(qs, id, e))
  {
    var qs' := UpdateQuestion(qs, id, e);
    assert forall i :: 0 <= i < |qs| ==> qs'[i].tempId == qs[i].tempId;
    forall i | 0 <= i < |qs'| ensures WellShaped(qs'[i]) {
      if qs[i].tempId == id && e.EditType? {
        assert qs'[i].qtype == e.qtype && qs'[i].choices == ChoicesForType(e.qtype);
      }
    }
  }

  lemma EditChoiceKeepsInvariant(qs: seq<DraftQuestion>, id: TempId, index: nat, e: ChoiceEdit)
    requires InvariantOn(qs)
    requires e != EditChoiceCorrect(false)
    requires forall i :: 0 <= i < |qs| && qs[i].tempId == id ==> index < |qs[i].choices|
    ensures InvariantOn(UpdateChoice(qs, id, index, e))
  {
    var qs' := UpdateChoice(qs, id, index, e);
    assert forall i :: 0 <= i < |qs| ==> qs'[i].tempId == qs[i].tempId;
    forall i | 0 <= i < |qs'| ensures WellShaped(qs'[i]) {
      if qs[i].tempId == id {
        EditChoiceKeepsShape(qs[i], index, e);
      }
    }
  }

  lemma EditChoiceKeepsShape(q: DraftQuestion, index: nat, e: ChoiceEdit)
    requires WellShaped(q) && index < |q.choices| && e != EditChoiceCorrect(false)
    ensures WellShaped(q.(choices := EditChoices(q.choices, index, e)))
  {
    var cs := q.choices;
    var cs' := EditChoices(cs, index, e);
    if e.EditChoiceText? {
      var k :| 0 <= k < |cs| && CorrectOnlyAt(cs, k);
      assert forall j :: 0 <= j < |cs'| ==> cs'[j].isCorrect == cs[j].isCorrect;
      assert CorrectOnlyAt(cs', k);
    } else {
      SelectingLeavesExactlyOne(cs, index);
    }
  }

  /** Whatever the user does on the page, the form keeps at least one draft,
      distinct ids, and exactly one correct choice per choice question. */
  lemma {:induction false} PageRunKeepsInvariant(form: FormState, actions: seq<Action>)
    requires FormInvariant(form) && PageRun(form, actions)
    ensures FormInvariant(Run(form, actions))
    decreases |actions|
  {
    if |actions| > 0 {
      StepKeepsInvariant(form, actions[0]);
      PageRunKeepsInvariant(Step(form, actions[0]), actions[1..]);
    }
  }

  /** Consequently the "needs a correct answer" error for multiple-choice
      questions can never be raised from the page. */
  lemma PageNeverMissesCorrectChoice(form: FormState, n: nat)
    requires FormInvariant(form)
    ensures Validate(form) != Some(MissingCorrectChoice(n))
  {
    var qs := form.questions;
    forall k | 0 <= k < |qs| ensures QuestionProblem(qs[k], k + 1) != Some(MissingCorrectChoice(n)) {
      var q := qs[k];
      assert WellShaped(q);
      if q.qtype == Mcq {
        var w :| 0 <= w < |q.choices| && CorrectOnlyAt(q.choices, w);
        assert q.choices[w].isCorrect;
      }
    }
  }

  /** The actions of the counterexample: a title, a question text, and text
      for the second and third choice, leaving the first choice (the one
      flagged correct) blank. */
  const BlankKeyActions: seq<Action> := [
    SetTitle("T"),
    EditQuestion(1, EditText("Q")),
    EditChoice(1, 1, EditChoiceText("a")),
    EditChoice(1, 2, EditChoiceText("b"))]

  /** The form those actions produce from the initial page. */
  const BlankKeyForm: FormState :=
    FormState("T", "", [DraftQuestion(1, "Q", Mcq, 0, "",
      [DraftChoice("", true), DraftChoice("a", false), DraftChoice("b", false), DraftChoice("", false)])])

  lemma BlankKeyFormReachable()
    ensures PageRun(InitialForm(1), BlankKeyActions)
    ensures Run(InitialForm(1), BlankKeyActions) == BlankKeyForm
  {
    var f0 := InitialForm(1);
    var f1 := Step(f0, BlankKeyActions[0]);
    var f2 := Step(f1, BlankKeyActions[1]);
    var f3 := Step(f2, BlankKeyActions[2]);
    var f4 := Step(f3, BlankKeyActions[3]);
    var q0 := EmptyQuestion(1);
    assert f1 == FormState("T", "", [q0]);
    var q1 := q0.(text := "Q");
    assert f2 == FormState("T", "", [q1]);
    var q2 := q1.(choices := q1.choices[1 := DraftChoice("a", false)]);
    assert f3 == FormState("T", "", [q2]);
    var q3 := q2.(choices := q2.choices[2 := DraftChoice("b", false)]);
    assert f4 == FormState("T", "", [q3]);
    assert q3 == BlankKeyForm.questions[0];
    assert f4 == BlankKeyForm;
    assert Run(f4, []) == f4;
    assert BlankKeyActions[3..] == [BlankKeyActions[3]];
    assert BlankKeyActions[2..] == [BlankKeyActions[2], BlankKeyActions[3]];
    assert BlankKeyActions[1..] == [BlankKeyActions[1], BlankKeyActions[2], BlankKeyActions[3]];
  }

  /** Validation checks that SOME choice is flagged correct, including blank
      ones, but the body keeps only filled choices: a form reachable from the
      page passes validation and sends a multiple-choice question none of
      whose choices is correct. */
  lemma BlankCorrectChoiceSlipsThrough()
    ensures PageRun(InitialForm(1), BlankKeyActions) && Run(InitialForm(1), BlankKeyActions) == BlankKeyForm
    ensures Validate(BlankKeyForm).None?
    ensures var p := BuildPayload(BlankKeyForm);
      && |p.questions| == 1 && p.questions[0].qtype == Mcq
      && p.questions[0].choices == [DraftChoice("a", false), DraftChoice("b", false)]
      && !SomeCorrect(p.questions[0].choices)
  {
    BlankKeyFormReachable();
    BlankKeyValid();
    BlankKeyPayload();
  }

  lemma BlankKeyPayload()
    ensures var p := BuildPayload(BlankKeyForm);
      && |p.questions| == 1 && p.questions[0].qtype == Mcq
      && p.questions[0].choices == [DraftChoice("a", false), DraftChoice("b", false)]
      && !SomeCorrect(p.questions[0].choices)
  {
    BlankKeyFilled();
    var cs := BuildPayload(BlankKeyForm).questions[0].choices;
    assert cs == FilledChoices(BlankKeyForm.questions[0].choices);
    assert !cs[0].isCorrect && !cs[1].isCorrect;
  }

  lemma BlankKeyFilled()
    ensures FilledChoices(BlankKeyForm.questions[0].choices) == [DraftChoice("a", false), DraftChoice("b", false)]
  {
    var a, b := DraftChoice("a", false), DraftChoice("b", false);
    var blank := DraftChoice("", false);
    assert !JsBlank(a.text) by { assert !IsJsSpace(a.text[0]); }
    assert !JsBlank(b.text) by { assert !IsJsSpace(b.text[0]); }
    assert FilledChoices([blank]) == [];
    assert FilledChoices([b, blank]) == [b] by { assert [b, blank][1..] == [blank]; }
    assert FilledChoices([a, b, blank]) == [a, b] by { assert [a, b, blank][1..] == [b, blank]; }
    var cs := BlankKeyForm.questions[0].choices;
    assert cs[1..] == [a, b, blank];
  }

  lemma BlankKeyValid()
    ensures Validate(BlankKeyForm).None?
  {
    var q := BlankKeyForm.questions[0];
    BlankKeyFilled();
    assert !JsBlank(q.text) by { assert !IsJsSpace(q.text[0]); }
    assert !JsBlank(BlankKeyForm.title) by { assert !IsJsSpace(BlankKeyForm.title[0]); }
    assert SomeCorrect(q.choices) by { assert q.choices[0].isCorrect; }
    assert |FilledChoices(q.choices)| == 2;
    assert QuestionProblem(q, 1).None?;
  }

  /** A stored multiple-choice question with no choice flagged correct can
      never be answered correctly. */
  lemma NoCorrectChoiceNoCorrectAnswer(q: Question, a: AnswerInput)
    requires q.qtype.HasChoices()
    requires forall k :: 0 <= k < |q.choices| ==> !q.choices[k].isCorrect
    requires JudgeAnswer(q, a).Success?
    ensures !JudgeAnswer(q, a).value.isCorrect
  {
    if ChoiceSelected(a.selectedChoiceId) {
      var c := JudgeAnswer(q, a).value.selectedChoice.value;
      var k :| 0 <= k < |q.choices| && q.choices[k] == c;
    }
  }

  /** The evidently intended check: a multiple-choice question needs a correct
      choice among the choices that will actually be sent. */
  function QuestionProblemIntended(q: DraftQuestion, n: nat): (r: Option<FormError>)
    ensures r.None? <==> QuestionProblem(q, n).None? && (q.qtype == Mcq ==> SomeCorrect(FilledChoices(q.choices)))
    ensures QuestionProblem(q, n).Some? ==> r == QuestionProblem(q, n)
  {
    match QuestionProblem(q, n)
    case Some(e) => Some(e)
    case None =>
      if q.qtype == Mcq && !(exists k :: 0 <= k < |FilledChoices(q.choices)| && FilledChoices(q.choices)[k].isCorrect)
      then Some(MissingCorrectChoice(n))
      else None
  }

  function ProblemsIntended(qs: seq<DraftQuestion>): (r: seq<Option<FormError>>)
    ensures |r| == |qs| && forall i :: 0 <= i < |qs| ==> r[i] == QuestionProblemIntended(qs[i], i + 1)
  {
    seq(|qs|, i requires 0 <= i < |qs| => QuestionProblemIntended(qs[i], i + 1))
  }

  /** Validation with the intended correct-choice check. */
  function ValidateIntended(form: FormState): (r: Option<FormError>)
    ensures r.None? ==> Validate(form).None?
    ensures r.None? <==> Validate(form).None? && forall i :: 0 <= i < |form.questions| ==>
      (form.questions[i].qtype == Mcq ==> SomeCorrect(FilledChoices(form.questions[i].choices)))
  {
    if JsBlank(form.title) then Some(TitleRequired) else FirstProblem(ProblemsIntended(form.questions))
  }

  function SubmitFormIntended(form: FormState): (r: Result<QuizPayload, FormError>)
    ensures r.Success? <==> ValidateIntended(form).None?
    ensures r.Success? ==> r.value == BuildPayload(form)
    ensures r.Success? ==> forall i :: 0 <= i < |r.value.questions| ==>
      r.value.questions[i].qtype == Mcq ==> SomeCorrect(r.value.questions[i].choices)
  {
    match ValidateIntended(form)
    case Some(e) => Failure(e)
    case None => Success(BuildPayload(form))
  }

  /** The intended check rejects the counterexample. */
  lemma IntendedCheckRejectsBlankKey()
    ensures ValidateIntended(BlankKeyForm) == Some(MissingCorrectChoice(1))
  {
    BlankCorrectChoiceSlipsThrough();
    BlankKeyFormReachable();
  }

  // ---------------------------------------------------------------------------
  // From the page to the stored quiz
  // ---------------------------------------------------------------------------

  function ChoiceInputFor(c: DraftChoice): ChoiceInput {
    ChoiceInput(c.text, Some(c.isCorrect))
  }

  /** The JSON body as the backend reads it: every key is present. */
  function RequestFor(p: QuizPayload): (r: QuizInput)
    ensures r.title == p.title && r.description == Some(p.description)
    ensures |r.questions| == |p.questions|
    ensures forall i :: 0 <= i < |p.questions| ==>
      var q := p.questions[i];
      r.questions[i] == QuestionInput(q.text, q.qtype.Code(), Some(q.order), Some(q.correctText),
        Some(seq(|q.choices|, j requires 0 <= j < |q.choices| => ChoiceInputFor(q.choices[j]))))
  {
    QuizInput(p.title, Some(p.description),
      seq(|p.questions|, i requires 0 <= i < |p.questions| =>
        var q := p.questions[i];
        QuestionInput(q.text, q.qtype.Code(), Some(q.order), Some(q.correctText),
          Some(seq(|q.choices|, j requires 0 <= j < |q.choices| => ChoiceInputFor(q.choices[j]))))))
  }

  /** The backend stores each multiple-choice choice with the flag the page
      sent. */
  lemma StoredFlagsMatchPayload(p: QuizPayload, i: nat)
    requires CreateQuiz(RequestFor(p)).Success?
    requires i < |p.questions| && p.questions[i].qtype == Mcq
    ensures var row := CreateQuiz(RequestFor(p)).value.questions[i];
      && |row.choices| == |p.questions[i].choices|
      && forall j :: 0 <= j < |row.choices| ==> row.choices[j].isCorrect == p.questions[i].choices[j].isCorrect
  {
    CreatedChoicesKeepFlags(RequestFor(p), i);
  }

  /** Through the page with the intended check, every multiple-choice question
      the backend stores has a choice flagged correct. */
  lemma IntendedFormStoresAnswerableQuestions(form: FormState, i: nat)
    requires SubmitFormIntended(form).Success?
    requires CreateQuiz(RequestFor(BuildPayload(form))).Success?
    requires i < |form.questions| && form.questions[i].qtype == Mcq
    ensures var row := CreateQuiz(RequestFor(BuildPayload(form))).value.questions[i];
      exists j :: 0 <= j < |row.choices| && row.choices[j].isCorrect
  {
    var p := BuildPayload(form);
    StoredFlagsMatchPayload(p, i);
    var k :| 0 <= k < |p.questions[i].choices| && p.questions[i].choices[k].isCorrect;
    var row := CreateQuiz(RequestFor(p)).value.questions[i];
    assert row.choices[k].isCorrect;
  }
}

=== FILE: serializers.dfy ===
/** The REST serializers of the quiz backend: the public projections that hide
    answer keys, the result projection returned after a submission, and the
    field rules that validate quiz-creation and submission requests. */
module Serializers {
  import opened Wrappers
  import opened Text
  import opened Models

  // ---------------------------------------------------------------------------
  // Public (taker-facing) projections
  // ---------------------------------------------------------------------------

  datatype PublicChoice = PublicChoice(id: int, text: string)

  datatype PublicQuestion = PublicQuestion(
    id: int,
    text: string,
    qtype: QuestionType,
    order: int,
    choices: seq<PublicChoice>)

  datatype PublicQuiz = PublicQuiz(
    id: int,
    title: string,
    description: Option<string>,
    questions: seq<PublicQuestion>)

  function PublicChoiceOf(c: Choice): PublicChoice {
    PublicChoice(c.id, c.text)
  }

  /** A question as a taker sees it: identity, text, type, order and the ids
      and texts of its choices, in the same order. */
  function PublicQuestionOf(q: Question): (r: PublicQuestion)
    ensures r.id == q.id && r.text == q.text && r.qtype == q.qtype && r.order == q.order
    ensures |r.choices| == |q.choices|
    ensures forall i :: 0 <= i < |q.choices| ==>
      r.choices[i].id == q.choices[i].id && r.choices[i].text == q.choices[i].text
  {
    PublicQuestion(q.id, q.text, q.qtype, q.order,
      seq(|q.choices|, i requires 0 <= i < |q.choices| => PublicChoiceOf(q.choices[i])))
  }

  function PublicQuizOf(quiz: Quiz): (r: PublicQuiz)
    ensures r.id == quiz.id && r.title == quiz.title && r.description == quiz.description
    ensures |r.questions| == |quiz.questions|
    ensures forall i :: 0 <= i < |quiz.questions| ==> r.questions[i] == PublicQuestionOf(quiz.questions[i])
  {
    PublicQuiz(quiz.id, quiz.title, quiz.description,
      seq(|quiz.questions|, i requires 0 <= i < |quiz.questions| => PublicQuestionOf(quiz.questions[i])))
  }

  /** The question with its answer keys erased: no reference answer and no
      choice marked correct. */
  function WithoutAnswerKeys(q: Question): (r: Question)
    ensures r.correctText.None?
    ensures |r.choices| == |q.choices|
    ensures forall i :: 0 <= i < |r.choices| ==> !r.choices[i].isCorrect
  {
    q.(correctText := None,
       choices := seq(|q.choices|, i requires 0 <= i < |q.choices| => q.choices[i].(isCorrect := false)))
  }

  /** The answer keys do not leak: two questions that differ only in their
      reference answer and correctness flags look the same to a taker. */
  lemma {:induction false} PublicViewHidesAnswerKeys(q1: Question, q2: Question)
    requires WithoutAnswerKeys(q1) == WithoutAnswerKeys(q2)
    ensures PublicQuestionOf(q1) == PublicQuestionOf(q2)
  {
    var k1 := WithoutAnswerKeys(q1);
    var k2 := WithoutAnswerKeys(q2);
    assert |q1.choices| == |q2.choices|;
    forall i | 0 <= i < |q1.choices|
      ensures PublicChoiceOf(q1.choices[i]) == PublicChoiceOf(q2.choices[i])
    {
      assert k1.choices[i] == k2.choices[i];
    }
  }

  /** The same at quiz level: the public quiz is a function of the quiz with
      every answer key erased. */
  lemma PublicQuizHidesAnswerKeys(a: Quiz, b: Quiz)
    requires a.id == b.id && a.title == b.title && a.description == b.description
    requires |a.questions| == |b.questions|
    requires forall i :: 0 <= i < |a.questions| ==>
      WithoutAnswerKeys(a.questions[i]) == WithoutAnswerKeys(b.questions[i])
    ensures PublicQuizOf(a) == PublicQuizOf(b)
  {
    forall i | 0 <= i < |a.questions|
      ensures PublicQuestionOf(a.questions[i]) == PublicQuestionOf(b.questions[i])
    {
      PublicViewHidesAnswerKeys(a.questions[i], b.questions[i]);
    }
  }

  // ---------------------------------------------------------------------------
  // Result projection
  // ---------------------------------------------------------------------------

  /** Position of the first choice flagged correct, if any. */
  function FirstCorrectIndex(cs: seq<Choice>): (r: Option<nat>)
    ensures r.Some? ==> r.value < |cs| && cs[r.value].isCorrect
    ensures r.Some? ==> forall j :: 0 <= j < r.value ==> !cs[j].isCorrect
    ensures r.None? <==> forall j :: 0 <= j < |cs| ==> !cs[j].isCorrect
  {
    if |cs| == 0 then None
    else if cs[0].isCorrect then Some(0)
    else match FirstCorrectIndex(cs[1..])
      case None => None
      case Some(k) => Some(k + 1)
  }

  /** The text of the correct choice shown next to an answer: nothing for text
      questions, otherwise the first choice (in creation order) flagged
      correct, or nothing when no choice is. */
  function CorrectChoice(q: Question): (r: Option<string>)
    ensures !q.qtype.HasChoices() ==> r.None?
    ensures q.qtype.HasChoices() ==>
      (r.None? <==> forall j :: 0 <= j < |q.choices| ==> !q.choices[j].isCorrect)
    ensures r.Some? ==> (exists k :: 0 <= k < |q.choices| && q.choices[k].isCorrect
                           && q.choices[k].text == r.value
                           && forall j :: 0 <= j < k ==> !q.choices[j].isCorrect)
  {
    if q.qtype.HasChoices() then
      match FirstCorrectIndex(q.choices)
      case Some(k) => Some(q.choices[k].text)
      case None => None
    else None
  }

  /** One answer in the result returned to the taker. */
  datatype AnswerResult = AnswerResult(
    questionText: string,
    questionType: string,
    selectedChoiceText: Option<string>,
    textAnswer: string,
    isCorrect: bool,
    correctChoice: Option<string>,
    correctText: Option<string>)

  datatype SubmissionResult = SubmissionResult(
    quizTitle: string,
    takerName: Option<string>,
    score: int,
    totalQuestions: int,
    percentage: real,
    answers: seq<AnswerResult>)

  function AnswerResultOf(a: AnswerRecord): (r: AnswerResult)
    ensures r.questionText == a.question.text && r.questionType == a.question.qtype.Code()
    ensures r.selectedChoiceText.Some? <==> a.selectedChoice.Some?
    ensures a.selectedChoice.Some? ==> r.selectedChoiceText == Some(a.selectedChoice.value.text)
    ensures r.isCorrect == a.isCorrect && r.textAnswer == a.textAnswer
    ensures r.correctChoice == CorrectChoice(a.question)
    ensures r.correctText == a.question.correctText
  {
    AnswerResult(
      a.question.text,
      a.question.qtype.Code(),
      match a.selectedChoice
        case Some(c) => Some(c.text)
        case None => None,
      a.textAnswer,
      a.isCorrect,
      CorrectChoice(a.question),
      a.question.correctText)
  }

  /** The response body after a submission: one entry per stored answer, in
      order, and the score with its percentage. */
  function SubmissionResultOf(s: Submission): (r: SubmissionResult)
    ensures r.quizTitle == s.quiz.title && r.takerName == s.takerName
    ensures r.score == s.score && r.totalQuestions == s.totalQuestions
    ensures r.percentage == Percentage(s.score, s.totalQuestions)
    ensures |r.answers| == |s.answers|
    ensures forall i :: 0 <= i < |s.answers| ==> r.answers[i] == AnswerResultOf(s.answers[i])
  {
    SubmissionResult(s.quiz.title, s.takerName, s.score, s.totalQuestions,
      SubmissionPercentage(s),
      seq(|s.answers|, i requires 0 <= i < |s.answers| => AnswerResultOf(s.answers[i])))
  }

  // ---------------------------------------------------------------------------
  // Request validation
  // ---------------------------------------------------------------------------

  /** A request that fails field validation (the per-field messages are not
      modelled). */
  datatype ValidationError = Invalid

  /** A string field of a request: surrounding whitespace is stripped and a
      blank value is refused unless `allowBlank` (a blank value that is allowed
      becomes "" without further checks); a non-blank value must fit
      `maxLength` when one is set and must not contain the NUL character. */
  function CharField(raw: string, allowBlank: bool, maxLength: Option<nat>): (r: Option<string>)
    ensures r.Some? ==> r.value == PyStrip(raw)
    ensures r.Some? <==>
      && (allowBlank || !AllSpace(raw, IsPySpace))
      && (maxLength.None? || |PyStrip(raw)| <= maxLength.value)
      && '\0' !in raw
  {
    BlankIffAllSpace(raw, IsPySpace);
    StripKeepsNonSpace(raw, '\0');
    var v := PyStrip(raw);
    if v == "" then (if allowBlank then Some(v) else None)
    else if maxLength.Some? && |v| > maxLength.value then None
    else if '\0' in v then None
    else Some(v)
  }

  const ChoiceTextMaxLength: nat := 200
  const TitleMaxLength: nat := 200
  const TakerNameMaxLength: nat := 100

  /** A choice as sent in a creation request; `isCorrect` may be omitted. */
  datatype ChoiceInput = ChoiceInput(text: string, isCorrect: Option<bool>)

  /** A question as sent in a creation request. `None` marks an omitted key. */
  datatype QuestionInput = QuestionInput(
    text: string,
    typeCode: string,
    order: Option<int>,
    correctText: Option<string>,
    choices: Option<seq<ChoiceInput>>)

  datatype QuizInput = QuizInput(
    title: string,
    description: Option<string>,
    questions: seq<QuestionInput>)

  /** Validated request data. `None` marks a key absent from the validated
      data, which is what the view's `.get(key, default)` falls back on. */
  datatype ChoiceData = ChoiceData(text: string, isCorrect: Option<bool>)

  datatype QuestionData = QuestionData(
    text: string,
    qtype: QuestionType,
    order: Option<int>,
    correctText: Option<string>,
    choices: Option<seq<ChoiceData>>)

  datatype QuizData = QuizData(
    title: string,
    description: Option<string>,
    questions: seq<QuestionData>)

  /** A choice is valid when its stripped text is non-blank and at most 200
      characters; an omitted flag takes the field default `false`. */
  function ValidateChoice(c: ChoiceInput): (r: Option<ChoiceData>)
    ensures r.Some? <==> !AllSpace(c.text, IsPySpace) && |PyStrip(c.text)| <= ChoiceTextMaxLength && '\0' !in c.text
    ensures r.Some? ==> r.value.text == PyStrip(c.text) && 0 < |r.value.text| <= ChoiceTextMaxLength
    ensures r.Some? ==> r.value.isCorrect == Some(c.isCorrect.GetOr(false))
  {
    BlankIffAllSpace(c.text, IsPySpace);
    var text :- CharField(c.text, false, Some(ChoiceTextMaxLength));
    Some(ChoiceData(text, Some(c.isCorrect.GetOr(DefaultIsCorrect))))
  }

  /** Validates every element of a list field; the list is valid when every
      element is, and then the validated elements keep their order. */
  function ValidateAll<A, B>(xs: seq<A>, validate: A -> Option<B>): (r: Option<seq<B>>)
    ensures r.Some? <==> forall i :: 0 <= i < |xs| ==> validate(xs[i]).Some?
    ensures r.Some? ==> |r.value| == |xs|
    ensures r.Some? ==> forall i :: 0 <= i < |xs| ==> validate(xs[i]) == Some(r.value[i])
  {
    if |xs| == 0 then Some([])
    else
      var head :- validate(xs[0]);
      var tail :- ValidateAll(xs[1..], validate);
      Some([head] + tail)
  }

  function ValidateChoices(cs: seq<ChoiceInput>): (r: Option<seq<ChoiceData>>)
    ensures r.Some? <==> forall i :: 0 <= i < |cs| ==> ValidateChoice(cs[i]).Some?
    ensures r.Some? ==> |r.value| == |cs|
    ensures r.Some? ==> forall i :: 0 <= i < |cs| ==> ValidateChoice(cs[i]) == Some(r.value[i])
  {
    ValidateAll(cs, ValidateChoice)
  }

  /** A question is valid when its stripped text is non-blank, its type code is
      one of the three codes, no text field holds a NUL character, and every
      choice it lists is valid. An omitted `order` is replaced by
      `orderDefault` when that is given. */
  function ValidateQuestion(q: QuestionInput, orderDefault: Option<int>): (r: Option<QuestionData>)
    ensures r.Some? <==>
      && !AllSpace(q.text, IsPySpace) && '\0' !in q.text
      && ParseQuestionType(q.typeCode).Some?
      && (q.correctText.Some? ==> '\0' !in q.correctText.value)
      && (q.choices.Some? ==> ValidateChoices(q.choices.value).Some?)
    ensures r.Some? ==>
      && r.value.text == PyStrip(q.text) && r.value.text != ""
      && r.value.qtype.Code() == q.typeCode
      && r.value.order == (if q.order.Some? then q.order else orderDefault)
      && r.value.correctText == (if q.correctText.Some? then Some(PyStrip(q.correctText.value)) else None)
      && r.value.choices.Some? == q.choices.Some?
    ensures r.Some? && q.choices.Some? ==> r.value.choices == ValidateChoices(q.choices.value)
  {
    BlankIffAllSpace(q.text, IsPySpace);
    var text :- CharField(q.text, false, None);
    var qtype :- ParseQuestionType(q.typeCode);
    var order := if q.order.Some? then q.order else orderDefault;
    var correctText :-
      match q.correctText
      case Some(t) => (var v :- CharField(t, true, None); Some(Some(v)))
      case None => Some(None);
    var choices :-
      match q.choices
      case Some(cs) => (var v :- ValidateChoices(cs); Some(Some(v)))
      case None => Some(None);
    Some(QuestionData(text, qtype, order, correctText, choices))
  }

  function ValidateQuestions(qs: seq<QuestionInput>, orderDefault: Option<int>): (r: Option<seq<QuestionData>>)
    ensures r.Some? <==> forall i :: 0 <= i < |qs| ==> ValidateQuestion(qs[i], orderDefault).Some?
    ensures r.Some? ==> |r.value| == |qs|
    ensures r.Some? ==> forall i :: 0 <= i < |qs| ==> ValidateQuestion(qs[i], orderDefault) == Some(r.value[i])
  {
    ValidateAll(qs, q => ValidateQuestion(q, orderDefault))
  }

  function ValidateQuizWith(input: QuizInput, orderDefault: Option<int>): (r: Result<QuizData, ValidationError>)
    ensures r.Success? <==>
      && !AllSpace(input.title, IsPySpace)
      && |PyStrip(input.title)| <= TitleMaxLength && '\0' !in input.title
      && (input.description.Some? ==> '\0' !in input.description.value)
      && forall i :: 0 <= i < |input.questions| ==> ValidateQuestion(input.questions[i], orderDefault).Some?
    ensures r.Success? ==>
      && r.value.title == PyStrip(input.title) && 0 < |r.value.title| <= TitleMaxLength
      && r.value.description == (if input.description.Some? then Some(PyStrip(input.description.value)) else None)
      && |r.value.questions| == |input.questions|
      && forall i :: 0 <= i < |input.questions| ==>
           ValidateQuestion(input.questions[i], orderDefault) == Some(r.value.questions[i])
  {
    match CharField(input.title, false, Some(TitleMaxLength))
    case None => Failure(Invalid)
    case Some(title) =>
      match DescriptionField(input.description)
      case None => Failure(Invalid)
      case Some(description) =>
        match ValidateQuestions(input.questions, orderDefault)
        case None => Failure(Invalid)
        case Some(questions) => Success(QuizData(title, description, questions))
  }

  /** The optional, blank-allowed description: kept stripped when sent. */
  function DescriptionField(d: Option<string>): (r: Option<Option<string>>)
    ensures r.Some? <==> d.None? || '\0' !in d.value
    ensures r.Some? ==> r.value == (if d.Some? then Some(PyStrip(d.value)) else None)
  {
    match d
    case Some(t) => (var v :- CharField(t, true, None); Some(Some(v)))
    case None => Some(None)
  }

  /** Validation of a quiz-creation request as written: the integer `order`
      field declares a default of 0, so validated data always carries an
      order. */
  function ValidateCreate(input: QuizInput): (r: Result<QuizData, ValidationError>)
    ensures r.Success? ==> |r.value.questions| == |input.questions|
    ensures r.Success? ==> forall i :: 0 <= i < |r.value.questions| ==> r.value.questions[i].order.Some?
    ensures r.Success? ==> forall i :: 0 <= i < |input.questions| && input.questions[i].order.None? ==>
      r.value.questions[i].order == Some(DefaultOrder)
  {
    ValidateQuizWith(input, Some(DefaultOrder))
  }

  /** Validation of a quiz-creation request without the `order` default, so
      that an omitted order stays absent for the view to fill in. */
  function ValidateCreateIntended(input: QuizInput): (r: Result<QuizData, ValidationError>)
    ensures r.Success? <==> ValidateCreate(input).Success?
    ensures r.Success? ==> |r.value.questions| == |input.questions|
    ensures r.Success? ==> forall i :: 0 <= i < |input.questions| ==>
      r.value.questions[i].order == input.questions[i].order
  {
    OrderDefaultKeepsValidity(input.questions, None, Some(DefaultOrder));
    ValidateQuizWith(input, None)
  }

  /** The order default decides the validated order and nothing else. */
  lemma OrderDefaultOnlyFillsOrder(q: QuestionInput, d1: Option<int>, d2: Option<int>)
    ensures ValidateQuestion(q, d1).Some? == ValidateQuestion(q, d2).Some?
    ensures ValidateQuestion(q, d1).Some? ==>
      ValidateQuestion(q, d2).value == ValidateQuestion(q, d1).value.(order := if q.order.Some? then q.order else d2)
  {
  }

  lemma OrderDefaultKeepsValidity(qs: seq<QuestionInput>, d1: Option<int>, d2: Option<int>)
    ensures forall i :: 0 <= i < |qs| ==> ValidateQuestion(qs[i], d1).Some? == ValidateQuestion(qs[i], d2).Some?
  {
    forall i | 0 <= i < |qs|
      ensures ValidateQuestion(qs[i], d1).Some? == ValidateQuestion(qs[i], d2).Some?
    {
      OrderDefaultOnlyFillsOrder(qs[i], d1, d2);
    }
  }

  /** An optional key of a JSON request body: left out, sent as `null`, or
      sent with a value. */
  datatype JsonField<T> = Omitted | Null | Given(value: T)

  /** One submitted answer as received. The choice id accepts `null`, which
      the view cannot tell apart from an omitted key, so `None` stands for
      both; the text answer does not accept `null`. */
  datatype AnswerRequest = AnswerRequest(
    questionId: int,
    selectedChoiceId: Option<int>,
    textAnswer: JsonField<string>)

  datatype SubmitRequest = SubmitRequest(takerName: JsonField<string>, answers: seq<AnswerRequest>)

  /** One validated answer. `None` marks a key absent from the validated data
      (for the choice id, also an explicit `null`). */
  datatype AnswerInput = AnswerInput(
    questionId: int,
    selectedChoiceId: Option<int>,
    textAnswer: Option<string>)

  datatype SubmitInput = SubmitInput(takerName: Option<string>, answers: seq<AnswerInput>)

  /** An answer is valid unless its text answer is `null` or holds a NUL
      character; a text answer may be blank and is kept stripped. */
  function ValidateAnswer(a: AnswerRequest): (r: Option<AnswerInput>)
    ensures r.Some? <==> a.textAnswer.Omitted? || (a.textAnswer.Given? && '\0' !in a.textAnswer.value)
    ensures r.Some? ==> r.value.questionId == a.questionId && r.value.selectedChoiceId == a.selectedChoiceId
    ensures r.Some? ==>
      r.value.textAnswer == (if a.textAnswer.Given? then Some(PyStrip(a.textAnswer.value)) else None)
  {
    match a.textAnswer
    case Omitted => Some(AnswerInput(a.questionId, a.selectedChoiceId, None))
    case Null => None
    case Given(t) =>
      var v :- CharField(t, true, None);
      Some(AnswerInput(a.questionId, a.selectedChoiceId, Some(v)))
  }

  /** The taker's name: optional and blank-allowed, but not `null`, at most
      100 characters once stripped, and free of NUL characters. */
  function TakerNameField(n: JsonField<string>): (r: Option<Option<string>>)
    ensures r.Some? <==>
      n.Omitted? || (n.Given? && |PyStrip(n.value)| <= TakerNameMaxLength && '\0' !in n.value)
    ensures r.Some? ==> r.value == (if n.Given? then Some(PyStrip(n.value)) else None)
  {
    match n
    case Omitted => Some(None)
    case Null => None
    case Given(t) => (var v :- CharField(t, true, Some(TakerNameMaxLength)); Some(Some(v)))
  }

  /** A submission is valid when the taker's name and every answer are. */
  function ValidateSubmit(input: SubmitRequest): (r: Result<SubmitInput, ValidationError>)
    ensures r.Success? <==>
      && TakerNameField(input.takerName).Some?
      && forall i :: 0 <= i < |input.answers| ==> ValidateAnswer(input.answers[i]).Some?
    ensures r.Success? ==>
      && r.value.takerName == TakerNameField(input.takerName).value
      && |r.value.answers| == |input.answers|
      && forall i :: 0 <= i < |input.answers| ==> ValidateAnswer(input.answers[i]) == Some(r.value.answers[i])
  {
    match TakerNameField(input.takerName)
    case None => Failure(Invalid)
    case Some(takerName) =>
      match ValidateAll(input.answers, ValidateAnswer)
      case None => Failure(Invalid)
      case Some(answers) => Success(SubmitInput(takerName, answers))
  }
}

=== FILE: text.dfy ===
/** ASCII models of the string primitives the quiz code relies on: Python's
    `str.strip()` and `str.lower()`, and JavaScript's `String.prototype.trim()`. */
module Text {

  /** Whitespace removed by JavaScript's `trim()`, restricted to ASCII:
      tab, line feed, vertical tab, form feed, carriage return and space. */
  predicate IsJsSpace(c: char) {
    c == ' ' || '\t' <= c <= '\r'
  }

  /** Whitespace removed by Python's `str.strip()`, restricted to ASCII: the
      JavaScript set plus the four information separators U+001C..U+001F. */
  predicate IsPySpace(c: char) {
    IsJsSpace(c) || '\U{1C}' <= c <= '\U{1F}'
  }

  predicate AllSpace(s: string, ws: char -> bool) {
    forall i :: 0 <= i < |s| ==> ws(s[i])
  }

  /** Drops leading characters satisfying `ws`. */
  function TrimLeft(s: string, ws: char -> bool): (r: string)
    ensures |r| <= |s| && r == s[|s| - |r|..]
    ensures AllSpace(s[..|s| - |r|], ws)
    ensures |r| > 0 ==> !ws(r[0])
  {
    if |s| > 0 && ws(s[0]) then TrimLeft(s[1..], ws) else s
  }

  /** Drops trailing characters satisfying `ws`. */
  function TrimRight(s: string, ws: char -> bool): (r: string)
    ensures |r| <= |s| && r == s[..|r|]
    ensures AllSpace(s[|r|..], ws)
    ensures |r| > 0 ==> !ws(r[|r| - 1])
  {
    if |s| > 0 && ws(s[|s| - 1]) then TrimRight(s[..|s| - 1], ws) else s
  }

  /** Drops surrounding characters satisfying `ws` on both ends. */
  function Trim(s: string, ws: char -> bool): string {
    TrimLeft(TrimRight(s, ws), ws)
  }

  /** Python `s.strip()` on ASCII: no whitespace is left at either end. */
  function PyStrip(s: string): (r: string)
    ensures |r| <= |s|
    ensures |r| > 0 ==> !IsPySpace(r[0]) && !IsPySpace(r[|r| - 1])
  {
    TrimEnds(s, IsPySpace);
    Trim(s, IsPySpace)
  }

  /** JavaScript `s.trim()` on ASCII: no whitespace is left at either end. */
  function JsTrim(s: string): (r: string)
    ensures |r| <= |s|
    ensures |r| > 0 ==> !IsJsSpace(r[0]) && !IsJsSpace(r[|r| - 1])
  {
    TrimEnds(s, IsJsSpace);
    Trim(s, IsJsSpace)
  }

  /** A string that JavaScript's `s.trim()` empties (see JsBlankIffTrimEmpty),
      i.e. one whose trimmed form is falsy. */
  predicate JsBlank(s: string) {
    forall i :: 0 <= i < |s| ==> IsJsSpace(s[i])
  }

  /** Python `str.lower()` on one ASCII character. */
  function LowerChar(c: char): (r: char)
    ensures 'A' <= c <= 'Z' ==> r as int == c as int + 32
    ensures !('A' <= c <= 'Z') ==> r == c
  {
    if 'A' <= c <= 'Z' then (c as int + 32) as char else c
  }

  /** Python `s.lower()` on ASCII: letter by letter. */
  function Lower(s: string): (r: string)
    ensures |r| == |s|
    ensures forall i :: 0 <= i < |s| ==> r[i] == LowerChar(s[i])
  {
    seq(|s|, i requires 0 <= i < |s| => LowerChar(s[i]))
  }

  /** The result of trimming has no surrounding whitespace left, and is a
      contiguous piece of the input framed by whitespace only. */
  lemma TrimCharacterised(s: string, ws: char -> bool)
    ensures var r := Trim(s, ws);
      && (|r| > 0 ==> !ws(r[0]) && !ws(r[|r| - 1]))
      && (exists i, j :: 0 <= i <= j <= |s| && r == s[i..j]
                         && AllSpace(s[..i], ws) && AllSpace(s[j..], ws))
  {
    var i, j := TrimBounds(s, ws);
    TrimEnds(s, ws);
  }

  /** Where the trimmed string sits in the input. */
  lemma TrimBounds(s: string, ws: char -> bool) returns (i: nat, j: nat)
    ensures i <= j <= |s| && Trim(s, ws) == s[i..j]
    ensures AllSpace(s[..i], ws) && AllSpace(s[j..], ws)
  {
    var m := TrimRight(s, ws);
    var r := TrimLeft(m, ws);
    i, j := |m| - |r|, |m|;
    assert m == s[..j];
    assert r == m[i..];
    assert m[..i] == s[..i];
  }

  lemma TrimEnds(s: string, ws: char -> bool)
    ensures var r := Trim(s, ws);
      |r| > 0 ==> !ws(r[0]) && !ws(r[|r| - 1])
  {
    var m := TrimRight(s, ws);
    var r := TrimLeft(m, ws);
    if |r| > 0 {
      assert r == m[|m| - |r|..];
      assert r[|r| - 1] == m[|m| - 1];
    }
  }

  /** Stripping removes whitespace only, so any other character occurs in the
      stripped string exactly when it occurs in the original. */
  lemma StripKeepsNonSpace(s: string, c: char)
    requires !IsPySpace(c)
    ensures c in PyStrip(s) <==> c in s
  {
    var i, j := TrimBounds(s, IsPySpace);
    assert PyStrip(s) == s[i..j];
    if c in s {
      NonSpaceInMiddle(s, c, i, j);
    }
    if c in s[i..j] {
      var m :| 0 <= m < j - i && s[i..j][m] == c;
      assert s[i + m] == c;
    }
  }

  /** A non-space character of `s` lies between its space-only ends. */
  lemma NonSpaceInMiddle(s: string, c: char, i: nat, j: nat)
    requires !IsPySpace(c) && c in s
    requires i <= j <= |s| && AllSpace(s[..i], IsPySpace) && AllSpace(s[j..], IsPySpace)
    ensures c in s[i..j]
  {
    assert forall k :: 0 <= k < i ==> s[k] == s[..i][k];
    assert forall k :: j <= k < |s| ==> s[k] == s[j..][k - j];
    var k :| 0 <= k < |s| && s[k] == c;
    assert s[i..j][k - i] == c;
  }

  /** A string is blank (trims to nothing) exactly when it is all whitespace. */
  lemma BlankIffAllSpace(s: string, ws: char -> bool)
    ensures Trim(s, ws) == "" <==> AllSpace(s, ws)
  {
    var m := TrimRight(s, ws);
    if !AllSpace(s, ws) && |m| > 0 {
      assert !ws(m[|m| - 1]);
      assert m[..|m|] == m;
    }
  }

  lemma {:induction false} TrimLeftSpacePrefix(pre: string, x: string, ws: char -> bool)
    requires AllSpace(pre, ws)
    ensures TrimLeft(pre + x, ws) == TrimLeft(x, ws)
  {
    if |pre| == 0 {
      assert pre + x == x;
    } else {
      assert (pre + x)[1..] == pre[1..] + x;
      TrimLeftSpacePrefix(pre[1..], x, ws);
    }
  }

  lemma {:induction false} TrimRightSpaceSuffix(x: string, post: string, ws: char -> bool)
    requires AllSpace(post, ws)
    ensures TrimRight(x + post, ws) == TrimRight(x, ws)
  {
    if |post| == 0 {
      assert x + post == x;
    } else {
      var y := x + post;
      assert y[..|y| - 1] == x + post[..|post| - 1];
      assert y[|y| - 1] == post[|post| - 1];
      TrimRightSpaceSuffix(x, post[..|post| - 1], ws);
    }
  }

  lemma {:induction false} TrimRightKeepsPrefix(pre: string, s: string, ws: char -> bool)
    requires TrimRight(s, ws) != ""
    ensures TrimRight(pre + s, ws) == pre + TrimRight(s, ws)
  {
    var y := pre + s;
    assert y[|y| - 1] == s[|s| - 1];
    if ws(s[|s| - 1]) {
      assert y[..|y| - 1] == pre + s[..|s| - 1];
      TrimRightKeepsPrefix(pre, s[..|s| - 1], ws);
    }
  }

  /** Surrounding whitespace added to a string is removed again by trimming. */
  lemma TrimIgnoresPadding(pre: string, s: string, post: string, ws: char -> bool)
    requires AllSpace(pre, ws) && AllSpace(post, ws)
    ensures Trim(pre + s + post, ws) == Trim(s, ws)
  {
    TrimRightSpaceSuffix(pre + s, post, ws);
    if TrimRight(s, ws) == "" {
      BlankIffAllSpace(s, ws);
      assert AllSpace(pre + s, ws) by {
        forall i | 0 <= i < |pre + s| ensures ws((pre + s)[i]) {
          if i >= |pre| { assert (pre + s)[i] == s[i - |pre|]; }
        }
      }
      BlankIffAllSpace(pre + s, ws);
    } else {
      TrimRightKeepsPrefix(pre, s, ws);
      TrimLeftSpacePrefix(pre, TrimRight(s, ws), ws);
    }
  }

  /** Lower-casing never turns a space into a non-space or back. */
  lemma LowerKeepsPySpace(c: char)
    ensures IsPySpace(LowerChar(c)) == IsPySpace(c)
  {
  }

  lemma {:induction false} LowerTrimLeftCommute(s: string)
    ensures Lower(TrimLeft(s, IsPySpace)) == TrimLeft(Lower(s), IsPySpace)
  {
    if |s| > 0 {
      LowerKeepsPySpace(s[0]);
      if IsPySpace(s[0]) {
        assert Lower(s)[1..] == Lower(s[1..]);
        LowerTrimLeftCommute(s[1..]);
      }
    }
  }

  lemma {:induction false} LowerTrimRightCommute(s: string)
    ensures Lower(TrimRight(s, IsPySpace)) == TrimRight(Lower(s), IsPySpace)
  {
    if |s| > 0 {
      var n := |s| - 1;
      LowerKeepsPySpace(s[n]);
      if IsPySpace(s[n]) {
        LowerPrefix(s, n);
        LowerTrimRightCommute(s[..n]);
      }
    }
  }

  lemma LowerPrefix(s: string, n: nat)
    requires n <= |s|
    ensures Lower(s)[..n] == Lower(s[..n])
  {
  }

  /** On ASCII, `s.strip().lower() == s.lower().strip()`. */
  lemma StripLowerCommute(s: string)
    ensures Lower(PyStrip(s)) == PyStrip(Lower(s))
  {
    LowerTrimRightCommute(s);
    LowerTrimLeftCommute(TrimRight(s, IsPySpace));
  }

  /** Anything JavaScript's trim removes, Python's strip removes too, so a string
      blank for JavaScript is blank for Python. */
  lemma JsBlankIsPyBlank(s: string)
    requires JsBlank(s)
    ensures PyStrip(s) == ""
  {
    BlankIffAllSpace(s, IsPySpace);
  }

  /** Blank strings are exactly those `trim()` turns into the empty string. */
  lemma JsBlankIffTrimEmpty(s: string)
    ensures JsBlank(s) <==> JsTrim(s) == ""
  {
    BlankIffAllSpace(s, IsJsSpace);
  }
}

=== FILE: views.dfy ===
/** The two request handlers that hold logic: scoring a submission against a
    stored quiz, and building a quiz with its questions and choices from a
    creation request. */
module Views {
  import opened Wrappers
  import opened Text
  import opened Models
  import opened Serializers

  // ---------------------------------------------------------------------------
  // Lookups (a missing row is a "not found" error)
  // ---------------------------------------------------------------------------

  /** Position of the first element whose id is `id`. */
  function IndexOfId<T>(xs: seq<T>, idOf: T -> int, id: int): (r: Option<nat>)
    ensures r.Some? ==> r.value < |xs| && idOf(xs[r.value]) == id
    ensures r.Some? ==> forall j :: 0 <= j < r.value ==> idOf(xs[j]) != id
    ensures r.None? <==> forall j :: 0 <= j < |xs| ==> idOf(xs[j]) != id
  {
    if |xs| == 0 then None
    else if idOf(xs[0]) == id then Some(0)
    else match IndexOfId(xs[1..], idOf, id)
      case None => None
      case Some(k) => Some(k + 1)
  }

  function QuizId(q: Quiz): int { q.id }
  function QuestionId(q: Question): int { q.id }
  function ChoiceId(c: Choice): int { c.id }

  function FindQuiz(quizzes: seq<Quiz>, pk: int): (r: Option<Quiz>)
    ensures r.Some? ==> r.value in quizzes && r.value.id == pk
    ensures r.None? <==> forall j :: 0 <= j < |quizzes| ==> quizzes[j].id != pk
  {
    match IndexOfId(quizzes, QuizId, pk)
    case Some(k) => Some(quizzes[k])
    case None => None
  }

  function FindQuestion(qs: seq<Question>, id: int): (r: Option<Question>)
    ensures r.Some? ==> r.value in qs && r.value.id == id
    ensures r.None? <==> forall j :: 0 <= j < |qs| ==> qs[j].id != id
  {
    match IndexOfId(qs, QuestionId, id)
    case Some(k) => Some(qs[k])
    case None => None
  }

  function FindChoice(cs: seq<Choice>, id: int): (r: Option<Choice>)
    ensures r.Some? ==> r.value in cs && r.value.id == id
    ensures r.None? <==> forall j :: 0 <= j < |cs| ==> cs[j].id != id
  {
    match IndexOfId(cs, ChoiceId, id)
    case Some(k) => Some(cs[k])
    case None => None
  }

  /** With distinct ids, the element found is the only one carrying that id. */
  lemma FindChoiceUnique(cs: seq<Choice>, k: nat)
    requires k < |cs|
    requires forall i, j :: 0 <= i < j < |cs| ==> cs[i].id != cs[j].id
    ensures FindChoice(cs, cs[k].id) == Some(cs[k])
  {
    var r := IndexOfId(cs, ChoiceId, cs[k].id);
    assert ChoiceId(cs[k]) == cs[k].id;
  }

  lemma FindQuestionUnique(qs: seq<Question>, k: nat)
    requires k < |qs|
    requires forall i, j :: 0 <= i < j < |qs| ==> qs[i].id != qs[j].id
    ensures FindQuestion(qs, qs[k].id) == Some(qs[k])
  {
    var r := IndexOfId(qs, QuestionId, qs[k].id);
    assert QuestionId(qs[k]) == qs[k].id;
  }

  // ---------------------------------------------------------------------------
  // Judging one answer
  // ---------------------------------------------------------------------------

  datatype SubmitError =
    | QuizNotFound
    | InvalidSubmission
    | QuestionNotFound(questionId: int)
    | ChoiceNotFound(choiceId: int)
    | DuplicateAnswer(questionId: int)

  /** Python truthiness of the submitted choice id: absent, null and 0 all
      count as "no choice selected". */
  function ChoiceSelected(choiceId: Option<int>): (r: bool)
    ensures choiceId.None? ==> !r
    ensures choiceId == Some(0) ==> !r
    ensures choiceId.Some? && choiceId.value != 0 ==> r
  {
    choiceId.Some? && choiceId.value != 0
  }

  /** The comparison used for text questions: the reference must be present
      and non-empty, and the two strings must agree once stripped and
      lower-cased, which on ASCII is the same as lower-cased and stripped. */
  function TextMatches(answer: string, reference: Option<string>): (r: bool)
    ensures r ==> reference.Some? && reference.value != ""
    ensures reference.Some? && reference.value != "" ==>
      (r <==> PyStrip(Lower(answer)) == PyStrip(Lower(reference.value)))
  {
    StripLowerCommute(answer);
    StripLowerCommute(reference.GetOr(""));
    reference.Some? && reference.value != ""
    && Lower(PyStrip(answer)) == Lower(PyStrip(reference.value))
  }

  /** Judges one answer against its question and builds the record to store. */
  function JudgeAnswer(q: Question, a: AnswerInput): (r: Result<AnswerRecord, SubmitError>)
    ensures r.Success? ==> r.value.question == q && r.value.textAnswer == a.textAnswer.GetOr("")
    ensures r.Failure? <==>
      q.qtype.HasChoices() && ChoiceSelected(a.selectedChoiceId)
      && forall j :: 0 <= j < |q.choices| ==> q.choices[j].id != a.selectedChoiceId.value
    ensures r.Failure? ==> r.error == ChoiceNotFound(a.selectedChoiceId.value)
    ensures q.qtype.HasChoices() && !ChoiceSelected(a.selectedChoiceId) ==>
      r.Success? && r.value.selectedChoice.None? && !r.value.isCorrect
    ensures q.qtype.HasChoices() && r.Success? && ChoiceSelected(a.selectedChoiceId) ==>
      && r.value.selectedChoice.Some?
      && r.value.selectedChoice.value in q.choices
      && r.value.selectedChoice.value.id == a.selectedChoiceId.value
      && r.value.isCorrect == r.value.selectedChoice.value.isCorrect
    ensures !q.qtype.HasChoices() ==>
      && r.Success? && r.value.selectedChoice.None?
      && (r.value.isCorrect <==>
            q.correctText.Some? && q.correctText.value != ""
            && Lower(PyStrip(a.textAnswer.GetOr(""))) == Lower(PyStrip(q.correctText.value)))
  {
    var text := a.textAnswer.GetOr("");
    if q.qtype.HasChoices() then
      if ChoiceSelected(a.selectedChoiceId) then
        match FindChoice(q.choices, a.selectedChoiceId.value)
        case None => Failure(ChoiceNotFound(a.selectedChoiceId.value))
        case Some(c) => Success(AnswerRecord(q, Some(c), text, c.isCorrect))
      else Success(AnswerRecord(q, None, text, false))
    else Success(AnswerRecord(q, None, text, TextMatches(text, q.correctText)))
  }

  /** With choice ids distinct (as primary keys are), a choice answer is
      correct exactly when the selected id names a choice flagged correct. */
  lemma ChoiceVerdict(q: Question, a: AnswerInput)
    requires q.qtype.HasChoices()
    requires forall i, j :: 0 <= i < j < |q.choices| ==> q.choices[i].id != q.choices[j].id
    requires JudgeAnswer(q, a).Success?
    ensures JudgeAnswer(q, a).value.isCorrect <==>
      ChoiceSelected(a.selectedChoiceId)
      && exists k :: 0 <= k < |q.choices| && q.choices[k].id == a.selectedChoiceId.value
                     && q.choices[k].isCorrect
  {
    if ChoiceSelected(a.selectedChoiceId) {
      var c := JudgeAnswer(q, a).value.selectedChoice.value;
      var k :| 0 <= k < |q.choices| && q.choices[k] == c;
      FindChoiceUnique(q.choices, k);
    }
  }

  /** Changing the letter case of a text answer never changes its verdict. */
  lemma TextVerdictIgnoresCase(answer1: string, answer2: string, reference: Option<string>)
    requires Lower(answer1) == Lower(answer2)
    ensures TextMatches(answer1, reference) == TextMatches(answer2, reference)
  {
    StripLowerCommute(answer1);
    StripLowerCommute(answer2);
  }

  /** Adding or removing surrounding whitespace never changes the verdict. */
  lemma TextVerdictIgnoresPadding(pre: string, answer: string, post: string, reference: Option<string>)
    requires AllSpace(pre, IsPySpace) && AllSpace(post, IsPySpace)
    ensures TextMatches(pre + answer + post, reference) == TextMatches(answer, reference)
  {
    TrimIgnoresPadding(pre, answer, post, IsPySpace);
  }

  /** An absent or empty reference answer accepts nothing. */
  lemma EmptyReferenceAcceptsNothing(answer: string, reference: Option<string>)
    requires reference.None? || reference == Some("")
    ensures !TextMatches(answer, reference)
  {
  }

  /** The guard tests the reference before stripping it: a reference made of
      spaces only is "present", and it accepts an empty answer. */
  lemma SpaceOnlyReferenceAcceptsEmptyAnswer()
    ensures TextMatches("", Some("  "))
  {
    assert TrimRight("  ", IsPySpace) == "";
    assert TrimRight("", IsPySpace) == "";
  }

  /** A string that neither starts nor ends with whitespace is left alone. */
  lemma StripUnpadded(s: string)
    requires |s| > 0 && !IsPySpace(s[0]) && !IsPySpace(s[|s| - 1])
    ensures PyStrip(s) == s
  {
  }

  /** "Paris", " paris " and "PARIS" are all accepted for the reference "Paris". */
  lemma ParisExample()
    ensures TextMatches("Paris", Some("Paris"))
    ensures TextMatches(" paris ", Some("Paris"))
    ensures TextMatches("PARIS", Some("Paris"))
  {
    StripUnpadded("Paris");
    StripUnpadded("paris");
    StripUnpadded("PARIS");
    assert Lower("Paris") == "paris";
    assert Lower("paris") == "paris";
    assert Lower("PARIS") == "paris";
    assert AllSpace(" ", IsPySpace);
    assert " paris " == " " + "paris" + " ";
    TextVerdictIgnoresPadding(" ", "paris", " ", Some("Paris"));
  }

  // ---------------------------------------------------------------------------
  // Scoring a submission
  // ---------------------------------------------------------------------------

  /** Looks up the answer's question within the quiz, then judges the answer. */
  function JudgeInQuiz(quiz: Quiz, a: AnswerInput): (r: Result<AnswerRecord, SubmitError>)
    ensures r == Failure(QuestionNotFound(a.questionId)) <==>
      forall j :: 0 <= j < |quiz.questions| ==> quiz.questions[j].id != a.questionId
    ensures r.Success? ==> r.value.question in quiz.questions && r.value.question.id == a.questionId
    ensures r.Success? ==> JudgeAnswer(r.value.question, a) == r
    ensures FindQuestion(quiz.questions, a.questionId).Some? ==>
      r == JudgeAnswer(FindQuestion(quiz.questions, a.questionId).value, a)
  {
    match FindQuestion(quiz.questions, a.questionId)
    case None => Failure(QuestionNotFound(a.questionId))
    case Some(q) => JudgeAnswer(q, a)
  }

  /** Judges every element in order, stopping at the first failure. */
  function JudgeEach<A, R, E>(xs: seq<A>, judge: A -> Result<R, E>): (r: Result<seq<R>, E>)
    ensures r.Success? <==> forall i :: 0 <= i < |xs| ==> judge(xs[i]).Success?
    ensures r.Success? ==> |r.value| == |xs|
    ensures r.Success? ==> forall i :: 0 <= i < |xs| ==> judge(xs[i]) == Success(r.value[i])
    ensures r.Failure? ==> (exists k :: 0 <= k < |xs|
                              && judge(xs[k]) == Failure(r.error)
                              && forall j :: 0 <= j < k ==> judge(xs[j]).Success?)
  {
    if |xs| == 0 then Success([])
    else
      match judge(xs[0])
      case Failure(e) => Failure(e)
      case Success(head) =>
        match JudgeEach(xs[1..], judge)
        case Failure(e) =>
          assert forall j :: 1 <= j < |xs| ==> xs[j] == xs[1..][j - 1];
          Failure(e)
        case Success(tail) => Success([head] + tail)
  }

  /** The answer loop: one record per answer, in submission order; the first
      answer that fails aborts the whole loop with its error. */
  function JudgeAll(quiz: Quiz, answers: seq<AnswerInput>): (r: Result<seq<AnswerRecord>, SubmitError>)
    ensures r.Success? <==> forall i :: 0 <= i < |answers| ==> JudgeInQuiz(quiz, answers[i]).Success?
    ensures r.Success? ==> |r.value| == |answers|
    ensures r.Success? ==> forall i :: 0 <= i < |answers| ==> JudgeInQuiz(quiz, answers[i]) == Success(r.value[i])
    ensures r.Failure? ==> (exists k :: 0 <= k < |answers|
                              && JudgeInQuiz(quiz, answers[k]) == Failure(r.error)
                              && forall j :: 0 <= j < k ==> JudgeInQuiz(quiz, answers[j]).Success?)
  {
    JudgeEach(answers, a => JudgeInQuiz(quiz, a))
  }

  /** The verdicts of a list of answer records, in order. */
  function Verdicts(records: seq<AnswerRecord>): (r: seq<bool>)
    ensures |r| == |records|
    ensures forall i :: 0 <= i < |records| ==> r[i] == records[i].isCorrect
  {
    seq(|records|, i requires 0 <= i < |records| => records[i].isCorrect)
  }

  /** The number of records judged correct. */
  function CountCorrect(records: seq<AnswerRecord>): (r: nat)
    ensures r <= |records|
    ensures r == |records| <==> forall i :: 0 <= i < |records| ==> records[i].isCorrect
    ensures r == 0 <==> forall i :: 0 <= i < |records| ==> !records[i].isCorrect
  {
    if |records| == 0 then 0
    else (if records[0].isCorrect then 1 else 0) + CountCorrect(records[1..])
  }

  /** The running count equals the number of `true` verdicts. */
  lemma {:induction false} CountCorrectCountsTrueVerdicts(records: seq<AnswerRecord>)
    ensures CountCorrect(records) == multiset(Verdicts(records))[true]
  {
    if |records| > 0 {
      assert Verdicts(records) == [records[0].isCorrect] + Verdicts(records[1..]);
      CountCorrectCountsTrueVerdicts(records[1..]);
    }
  }

  /** Scoring a validated submission against a quiz. The stored name falls
      back to the empty string; the question count is the quiz's, whatever
      was answered. */
  function SubmitTo(quiz: Quiz, data: SubmitInput): (r: Result<Submission, SubmitError>)
    ensures r.Success? <==> forall i :: 0 <= i < |data.answers| ==> JudgeInQuiz(quiz, data.answers[i]).Success?
    ensures r.Failure? ==> JudgeAll(quiz, data.answers).Failure? && r.error == JudgeAll(quiz, data.answers).error
    ensures r.Success? ==>
      && r.value.quiz == quiz
      && r.value.takerName == Some(data.takerName.GetOr(""))
      && r.value.totalQuestions == |quiz.questions|
      && |r.value.answers| == |data.answers|
      && (forall i :: 0 <= i < |data.answers| ==> JudgeInQuiz(quiz, data.answers[i]) == Success(r.value.answers[i]))
      && r.value.score == multiset(Verdicts(r.value.answers))[true]
      && 0 <= r.value.score <= |data.answers|
  {
    match JudgeAll(quiz, data.answers)
    case Failure(e) => Failure(e)
    case Success(records) =>
      CountCorrectCountsTrueVerdicts(records);
      Success(Submission(quiz, Some(data.takerName.GetOr("")), CountCorrect(records), |quiz.questions|, records))
  }

  /** The public submit endpoint: find the quiz, validate the request, score
      it. */
  function Submit(quizzes: seq<Quiz>, pk: int, input: SubmitRequest): (r: Result<Submission, SubmitError>)
    ensures r == Failure(QuizNotFound) <==> FindQuiz(quizzes, pk).None?
    ensures FindQuiz(quizzes, pk).Some? && ValidateSubmit(input).Failure? ==> r == Failure(InvalidSubmission)
    ensures r.Success? ==> FindQuiz(quizzes, pk).Some? && ValidateSubmit(input).Success?
    ensures FindQuiz(quizzes, pk).Some? && ValidateSubmit(input).Success? ==>
      r == SubmitTo(FindQuiz(quizzes, pk).value, ValidateSubmit(input).value)
    ensures r.Success? ==> r.value.quiz.id == pk && r.value.totalQuestions == |r.value.quiz.questions|
    ensures r.Success? ==> |r.value.answers| == |input.answers| && 0 <= r.value.score <= |input.answers|
  {
    match FindQuiz(quizzes, pk)
    case None => Failure(QuizNotFound)
    case Some(quiz) =>
      match ValidateSubmit(input)
      case Failure(_) => Failure(InvalidSubmission)
      case Success(data) => SubmitTo(quiz, data)
  }

  /** Submitting no answers scores zero out of the quiz's question count. */
  lemma EmptySubmissionScoresZero(quiz: Quiz, takerName: Option<string>)
    ensures SubmitTo(quiz, SubmitInput(takerName, [])).Success?
    ensures SubmitTo(quiz, SubmitInput(takerName, [])).value.score == 0
    ensures SubmitTo(quiz, SubmitInput(takerName, [])).value.totalQuestions == |quiz.questions|
  {
  }

  // ---------------------------------------------------------------------------
  // A perfect submission
  // ---------------------------------------------------------------------------

  /** Primary keys are distinct and positive. */
  predicate WellKeyed(quiz: Quiz) {
    && (forall i, j :: 0 <= i < j < |quiz.questions| ==> quiz.questions[i].id != quiz.questions[j].id)
    && forall q :: q in quiz.questions ==>
         && (forall i, j :: 0 <= i < j < |q.choices| ==> q.choices[i].id != q.choices[j].id)
         && (forall c :: c in q.choices ==> c.id > 0)
  }

  /** A question some answer can get right: a choice question with a choice
      flagged correct, or a text question with a non-empty reference. */
  predicate Answerable(q: Question) {
    if q.qtype.HasChoices() then exists k :: 0 <= k < |q.choices| && q.choices[k].isCorrect
    else q.correctText.Some? && q.correctText.value != ""
  }

  /** The answer key of a question, written as a submitted answer. */
  function KeyAnswer(q: Question): AnswerInput {
    if q.qtype.HasChoices() then
      match FirstCorrectIndex(q.choices)
      case Some(k) => AnswerInput(q.id, Some(q.choices[k].id), None)
      case None => AnswerInput(q.id, None, None)
    else AnswerInput(q.id, None, q.correctText)
  }

  lemma KeyAnswerIsCorrect(quiz: Quiz, k: nat)
    requires k < |quiz.questions| && WellKeyed(quiz) && Answerable(quiz.questions[k])
    ensures JudgeInQuiz(quiz, KeyAnswer(quiz.questions[k])).Success?
    ensures JudgeInQuiz(quiz, KeyAnswer(quiz.questions[k])).value.isCorrect
  {
    var q := quiz.questions[k];
    FindQuestionUnique(quiz.questions, k);
    assert JudgeInQuiz(quiz, KeyAnswer(q)) == JudgeAnswer(q, KeyAnswer(q));
    if q.qtype.HasChoices() {
      var c := FirstCorrectIndex(q.choices).value;
      assert q.choices[c] in q.choices;
      FindChoiceUnique(q.choices, c);
    }
  }

  /** Answering every question of an answerable quiz with its key scores full
      marks: the score equals the question count, so the percentage is 100. */
  lemma PerfectSubmission(quiz: Quiz)
    requires WellKeyed(quiz)
    requires forall q :: q in quiz.questions ==> Answerable(q)
    ensures SubmitTo(quiz, SubmitInput(None, KeyAnswers(quiz))).Success?
    ensures SubmitTo(quiz, SubmitInput(None, KeyAnswers(quiz))).value.score == |quiz.questions|
    ensures |quiz.questions| > 0 ==> SubmissionPercentage(SubmitTo(quiz, SubmitInput(None, KeyAnswers(quiz))).value) == 100.0
  {
    var answers := KeyAnswers(quiz);
    forall i | 0 <= i < |answers|
      ensures JudgeInQuiz(quiz, answers[i]).Success? && JudgeInQuiz(quiz, answers[i]).value.isCorrect
    {
      KeyAnswerIsCorrect(quiz, i);
    }
    AllCorrectScoresFull(quiz, SubmitInput(None, answers));
  }

  /** When every answer is judged correct, the score is the number of
      answers. */
  lemma AllCorrectScoresFull(quiz: Quiz, data: SubmitInput)
    requires forall i :: 0 <= i < |data.answers| ==>
      JudgeInQuiz(quiz, data.answers[i]).Success? && JudgeInQuiz(quiz, data.answers[i]).value.isCorrect
    ensures SubmitTo(quiz, data).Success? && SubmitTo(quiz, data).value.score == |data.answers|
  {
    var records := JudgeAll(quiz, data.answers).value;
    assert forall i :: 0 <= i < |records| ==> records[i].isCorrect;
    assert CountCorrect(records) == |records|;
  }

  /** The answer key of every question, in quiz order. */
  function KeyAnswers(quiz: Quiz): (r: seq<AnswerInput>)
    ensures |r| == |quiz.questions| && forall i :: 0 <= i < |quiz.questions| ==> r[i] == KeyAnswer(quiz.questions[i])
  {
    seq(|quiz.questions|, i requires 0 <= i < |quiz.questions| => KeyAnswer(quiz.questions[i]))
  }

  // ---------------------------------------------------------------------------
  // Repeated answers to one question
  // ---------------------------------------------------------------------------

  /** A one-question true/false quiz used to exhibit repeated answers. */
  const SkyQuestion: Question :=
    Question(10, "Is the sky blue?", TrueFalse, 0, None,
      [Choice(100, "True", true), Choice(101, "False", false)])
  const SkyQuiz: Quiz := Quiz(1, "Sky", None, [SkyQuestion])

  /** Nothing stops a submission from answering the same question twice, and
      every copy is scored: two right answers to a one-question quiz score 2
      out of 1, which is 200 percent. */
  lemma RepeatedAnswerInflatesScore()
    ensures var r := Submit([SkyQuiz], 1,
              SubmitRequest(Omitted, [AnswerRequest(10, Some(100), Omitted), AnswerRequest(10, Some(100), Omitted)]));
      && r.Success?
      && r.value.score == 2 && r.value.totalQuestions == 1
      && SubmissionPercentage(r.value) == 200.0
  {
    var raw := AnswerRequest(10, Some(100), Omitted);
    var a := AnswerInput(10, Some(100), None);
    assert ValidateAnswer(raw) == Some(a);
    assert ValidateSubmit(SubmitRequest(Omitted, [raw, raw])).value.answers == [a, a];
    assert FindQuestion(SkyQuiz.questions, 10) == Some(SkyQuestion);
    assert FindChoice(SkyQuestion.choices, 100) == Some(Choice(100, "True", true));
    assert JudgeInQuiz(SkyQuiz, a).value.isCorrect;
    var records := JudgeAll(SkyQuiz, [a, a]).value;
    assert CountCorrect(records) == 2;
  }

  /** The question ids of a list of answers, in order. */
  function AnsweredIds(answers: seq<AnswerInput>): (r: seq<int>)
    ensures |r| == |answers|
    ensures forall i :: 0 <= i < |answers| ==> r[i] == answers[i].questionId
  {
    seq(|answers|, i requires 0 <= i < |answers| => answers[i].questionId)
  }

  /** The question ids of a list of answers as received, in order. The
      intended endpoint's contract speaks of the request before validation,
      whose answers are not yet `AnswerInput`s, so it needs these. */
  function RequestedIds(answers: seq<AnswerRequest>): (r: seq<int>)
    ensures |r| == |answers|
    ensures forall i :: 0 <= i < |answers| ==> r[i] == answers[i].questionId
  {
    seq(|answers|, i requires 0 <= i < |answers| => answers[i].questionId)
  }

  predicate DistinctInts(s: seq<int>) {
    forall i, j :: 0 <= i < j < |s| ==> s[i] != s[j]
  }

  /** Some question id that is answered more than once, if there is one. */
  function RepeatedId(ids: seq<int>): (r: Option<int>)
    ensures r.None? <==> DistinctInts(ids)
    ensures r.Some? ==> exists i, j :: 0 <= i < j < |ids| && ids[i] == r.value && ids[j] == r.value
  {
    if |ids| == 0 then None
    else if ids[0] in ids[1..] then
      assert exists j :: 1 <= j < |ids| && ids[j] == ids[0] by {
        var j' :| 0 <= j' < |ids[1..]| && ids[1..][j'] == ids[0];
        assert ids[j' + 1] == ids[0];
      }
      Some(ids[0])
    else
      var rest := RepeatedId(ids[1..]);
      if rest.Some? then
        assert exists i, j :: 1 <= i < j < |ids| && ids[i] == rest.value && ids[j] == rest.value by {
          var i', j' :| 0 <= i' < j' < |ids[1..]| && ids[1..][i'] == rest.value && ids[1..][j'] == rest.value;
          assert ids[i' + 1] == rest.value && ids[j' + 1] == rest.value;
        }
        rest
      else
        assert forall j :: 1 <= j < |ids| ==> ids[j] != ids[0] by {
          forall j | 1 <= j < |ids| ensures ids[j] != ids[0] {
            assert ids[j] == ids[1..][j - 1];
          }
        }
        assert forall i, j :: 1 <= i < j < |ids| ==> ids[i] != ids[j] by {
          forall i, j | 1 <= i < j < |ids| ensures ids[i] != ids[j] {
            assert ids[i] == ids[1..][i - 1] && ids[j] == ids[1..][j - 1];
          }
        }
        None
  }

  /** The elements of a sequence without repeats are as many as its length. */
  lemma {:induction false} DistinctCardinality(s: seq<int>)
    requires DistinctInts(s)
    ensures |set x | x in s| == |s|
  {
    if |s| > 0 {
      assert DistinctInts(s[1..]) by {
        forall i, j | 0 <= i < j < |s[1..]| ensures s[1..][i] != s[1..][j] {
          assert s[1..][i] == s[i + 1] && s[1..][j] == s[j + 1];
        }
      }
      DistinctCardinality(s[1..]);
      assert (set x | x in s) == {s[0]} + (set x | x in s[1..]);
      assert forall j :: 0 <= j < |s[1..]| ==> s[1..][j] != s[0];
      assert s[0] !in (set x | x in s[1..]);
    }
  }

  /** A sequence has at most as many distinct elements as its length. */
  lemma {:induction false} CardinalityAtMostLength(s: seq<int>)
    ensures |set x | x in s| <= |s|
  {
    if |s| > 0 {
      CardinalityAtMostLength(s[1..]);
      assert (set x | x in s) == {s[0]} + (set x | x in s[1..]);
    }
  }

  function QuizQuestionIds(quiz: Quiz): (r: seq<int>)
    ensures |r| == |quiz.questions|
    ensures forall i :: 0 <= i < |quiz.questions| ==> r[i] == quiz.questions[i].id
  {
    seq(|quiz.questions|, i requires 0 <= i < |quiz.questions| => quiz.questions[i].id)
  }

  /** The submit endpoint with the evidently intended rule that each question
      is answered at most once: a repeated question id is refused before any
      answer is scored. Otherwise it behaves exactly like `Submit`. */
  function SubmitIntended(quizzes: seq<Quiz>, pk: int, input: SubmitRequest): (r: Result<Submission, SubmitError>)
    ensures RepeatedId(RequestedIds(input.answers)).None? ==> r == Submit(quizzes, pk, input)
    ensures r.Success? ==> DistinctInts(RequestedIds(input.answers)) && r == Submit(quizzes, pk, input)
    ensures r.Success? ==> 0 <= r.value.score <= r.value.totalQuestions
    ensures r.Success? ==> 0.0 <= SubmissionPercentage(r.value) <= 100.0
  {
    match FindQuiz(quizzes, pk)
    case None => Failure(QuizNotFound)
    case Some(quiz) =>
      match ValidateSubmit(input)
      case Failure(_) => Failure(InvalidSubmission)
      case Success(data) =>
        assert AnsweredIds(data.answers) == RequestedIds(input.answers) by {
          forall i | 0 <= i < |input.answers|
            ensures data.answers[i].questionId == input.answers[i].questionId
          {
            assert ValidateAnswer(input.answers[i]) == Some(data.answers[i]);
          }
        }
        match RepeatedId(AnsweredIds(data.answers))
        case Some(id) => Failure(DuplicateAnswer(id))
        case None =>
          var r := SubmitTo(quiz, data);
          if r.Success? then
            ScoreWithinQuestionCount(quiz, data, r.value);
            r
          else r
  }

  /** When every question is answered at most once, the score cannot exceed
      the quiz's question count. */
  lemma ScoreWithinQuestionCount(quiz: Quiz, data: SubmitInput, s: Submission)
    requires DistinctInts(AnsweredIds(data.answers))
    requires SubmitTo(quiz, data) == Success(s)
    ensures s.score <= s.totalQuestions
  {
    var ids := AnsweredIds(data.answers);
    var qids := QuizQuestionIds(quiz);
    assert |s.answers| == |ids|;
    forall i | 0 <= i < |ids| ensures ids[i] in qids {
      AnsweredIdInQuiz(quiz, data, s, i);
    }
    SubsetCardinality(ids, qids);
    DistinctCardinality(ids);
    CardinalityAtMostLength(qids);
  }

  lemma AnsweredIdInQuiz(quiz: Quiz, data: SubmitInput, s: Submission, i: nat)
    requires SubmitTo(quiz, data) == Success(s)
    requires i < |data.answers|
    ensures data.answers[i].questionId in QuizQuestionIds(quiz)
  {
    var r := JudgeInQuiz(quiz, data.answers[i]);
    assert r.Success?;
    var k :| 0 <= k < |quiz.questions| && quiz.questions[k] == r.value.question;
    assert QuizQuestionIds(quiz)[k] == data.answers[i].questionId;
  }

  lemma SubsetCardinality(a: seq<int>, b: seq<int>)
    requires forall i :: 0 <= i < |a| ==> a[i] in b
    ensures |set x | x in a| <= |set x | x in b|
  {
    var sa := set x | x in a;
    var sb := set x | x in b;
    assert sa <= sb;
    assert sb == sa + (sb - sa);
    assert sa * (sb - sa) == {};
  }

  // ---------------------------------------------------------------------------
  // Building a quiz from a creation request
  // ---------------------------------------------------------------------------

  /** The rows written for a new quiz, before the database assigns keys. */
  datatype ChoiceRow = ChoiceRow(text: string, isCorrect: bool)

  datatype QuestionRow = QuestionRow(
    text: string,
    qtype: QuestionType,
    order: int,
    correctText: string,
    choices: seq<ChoiceRow>)

  datatype QuizRow = QuizRow(title: string, description: string, questions: seq<QuestionRow>)

  /** The choices written for one question: a true/false question given no
      choices gets "True" (correct) and "False"; otherwise the given choices
      are copied in order, unflagged ones as incorrect. */
  function ChoiceRowsFor(q: QuestionData): (r: seq<ChoiceRow>)
    ensures q.qtype == TrueFalse && q.choices.GetOr([]) == [] ==>
      r == [ChoiceRow("True", true), ChoiceRow("False", false)]
    ensures !(q.qtype == TrueFalse && q.choices.GetOr([]) == []) ==>
      && |r| == |q.choices.GetOr([])|
      && forall i :: 0 <= i < |r| ==>
           r[i].text == q.choices.value[i].text && r[i].isCorrect == q.choices.value[i].isCorrect.GetOr(false)
  {
    var given := q.choices.GetOr([]);
    if q.qtype == TrueFalse && |given| == 0 then
      [ChoiceRow("True", true), ChoiceRow("False", false)]
    else
      seq(|given|, i requires 0 <= i < |given| => ChoiceRow(given[i].text, given[i].isCorrect.GetOr(false)))
  }

  /** The question written at position `idx`: its order falls back to the
      position and its reference answer to the empty string. */
  function QuestionRowFor(idx: nat, q: QuestionData): (r: QuestionRow)
    ensures r.text == q.text && r.qtype == q.qtype
    ensures q.order.None? ==> r.order == idx
    ensures q.order.Some? ==> r.order == q.order.value
    ensures q.correctText.None? ==> r.correctText == ""
    ensures q.correctText.Some? ==> r.correctText == q.correctText.value
    ensures r.choices == ChoiceRowsFor(q)
  {
    QuestionRow(q.text, q.qtype, q.order.GetOr(idx), q.correctText.GetOr(""), ChoiceRowsFor(q))
  }

  function QuizRowFor(d: QuizData): (r: QuizRow)
    ensures r.title == d.title && r.description == d.description.GetOr("")
    ensures |r.questions| == |d.questions|
    ensures forall i :: 0 <= i < |d.questions| ==> r.questions[i] == QuestionRowFor(i, d.questions[i])
  {
    QuizRow(d.title, d.description.GetOr(""),
      seq(|d.questions|, i requires 0 <= i < |d.questions| => QuestionRowFor(i, d.questions[i])))
  }

  /** The create-with-questions endpoint as written: validate, then build. */
  function CreateQuiz(input: QuizInput): (r: Result<QuizRow, ValidationError>)
    ensures r.Success? <==> ValidateCreate(input).Success?
    ensures r.Success? ==> |r.value.questions| == |input.questions|
    ensures r.Success? ==> forall i :: 0 <= i < |input.questions| ==>
      r.value.questions[i].order == input.questions[i].order.GetOr(DefaultOrder)
    ensures r.Success? ==>
      && r.value.title == PyStrip(input.title)
      && r.value.description == (if input.description.Some? then PyStrip(input.description.value) else "")
    ensures r.Success? ==> forall i :: 0 <= i < |input.questions| ==>
      && ValidateQuestion(input.questions[i], Some(DefaultOrder)).Some?
      && r.value.questions[i] == QuestionRowFor(i, ValidateQuestion(input.questions[i], Some(DefaultOrder)).value)
  {
    match ValidateCreate(input)
    case Failure(e) => Failure(e)
    case Success(d) => Success(QuizRowFor(d))
  }

  /** A created multiple-choice question stores the choices it was sent, in
      order, each with the flag sent and `false` where the flag was omitted. */
  lemma CreatedChoicesKeepFlags(input: QuizInput, i: nat)
    requires CreateQuiz(input).Success? && i < |input.questions|
    requires input.questions[i].typeCode == Mcq.Code() && input.questions[i].choices.Some?
    ensures var row := CreateQuiz(input).value.questions[i];
      var sent := input.questions[i].choices.value;
      && |row.choices| == |sent|
      && forall j :: 0 <= j < |sent| ==>
           row.choices[j].isCorrect == sent[j].isCorrect.GetOr(false) && row.choices[j].text == PyStrip(sent[j].text)
  {
    StoredQuestionRow(input, i);
    var q := input.questions[i];
    var qd := ValidateQuestion(q, Some(DefaultOrder)).value;
    ValidMcqData(q, Some(DefaultOrder), qd);
    McqChoiceRows(qd, q.choices.value);
  }

  /** Question `i` of a created quiz is built from its validated data. */
  lemma StoredQuestionRow(input: QuizInput, i: nat)
    requires CreateQuiz(input).Success? && i < |input.questions|
    ensures ValidateQuestion(input.questions[i], Some(DefaultOrder)).Some?
    ensures CreateQuiz(input).value.questions[i] ==
      QuestionRowFor(i, ValidateQuestion(input.questions[i], Some(DefaultOrder)).value)
  {
    var d := ValidateCreate(input).value;
    assert CreateQuiz(input).value == QuizRowFor(d);
  }

  lemma ValidMcqData(q: QuestionInput, d: Option<int>, qd: QuestionData)
    requires ValidateQuestion(q, d) == Some(qd)
    requires q.typeCode == Mcq.Code() && q.choices.Some?
    ensures qd.qtype == Mcq
    ensures ValidateChoices(q.choices.value).Some? && qd.choices == ValidateChoices(q.choices.value)
  {
    QuestionTypeCodeInjective(qd.qtype, Mcq);
  }

  /** The choice rows of a validated multiple-choice question are its sent
      choices, stripped, with omitted flags read as false. */
  lemma McqChoiceRows(qd: QuestionData, sent: seq<ChoiceInput>)
    requires qd.qtype == Mcq && ValidateChoices(sent).Some? && qd.choices == ValidateChoices(sent)
    ensures var rows := ChoiceRowsFor(qd);
      && |rows| == |sent|
      && forall j :: 0 <= j < |sent| ==>
           rows[j].isCorrect == sent[j].isCorrect.GetOr(false) && rows[j].text == PyStrip(sent[j].text)
  {
    var vs := ValidateChoices(sent).value;
    CopiedChoiceRows(qd, vs);
    forall j | 0 <= j < |sent|
      ensures ChoiceRowsFor(qd)[j].isCorrect == sent[j].isCorrect.GetOr(false)
      ensures ChoiceRowsFor(qd)[j].text == PyStrip(sent[j].text)
    {
      assert ValidateChoice(sent[j]) == Some(vs[j]);
    }
  }

  lemma CopiedChoiceRows(qd: QuestionData, vs: seq<ChoiceData>)
    requires qd.qtype == Mcq && qd.choices == Some(vs)
    ensures |ChoiceRowsFor(qd)| == |vs|
    ensures forall j :: 0 <= j < |vs| ==>
      ChoiceRowsFor(qd)[j] == ChoiceRow(vs[j].text, vs[j].isCorrect.GetOr(false))
  {
  }

  /** A two-question request whose second question omits its order. */
  const UnorderedRequest: QuizInput := QuizInput("Capitals", None, [FranceQuestion, PeruQuestion])
  const FranceQuestion: QuestionInput := QuestionInput("Capital of France?", "text", Some(0), Some("Paris"), None)
  const PeruQuestion: QuestionInput := QuestionInput("Capital of Peru?", "text", None, Some("Lima"), None)

  lemma NonBlankTitle(t: string)
    requires 0 < |t| <= TitleMaxLength && !IsPySpace(t[0]) && !IsPySpace(t[|t| - 1])
    ensures !AllSpace(t, IsPySpace) && |PyStrip(t)| <= TitleMaxLength
  {
    StripUnpadded(t);
  }

  lemma TextQuestionValid(q: QuestionInput)
    requires |q.text| > 0 && !IsPySpace(q.text[0]) && q.typeCode == "text" && q.choices.None?
    requires '\0' !in q.text && (q.correctText.Some? ==> '\0' !in q.correctText.value)
    ensures ValidateQuestion(q, Some(DefaultOrder)).Some?
  {
  }

  /** The view's fallback to the question's position never takes effect: the
      serializer has already filled an omitted order with 0, so the second
      question is stored with order 0 rather than 1. */
  lemma OmittedOrderBecomesZero()
    ensures CreateQuiz(UnorderedRequest).Success?
    ensures CreateQuiz(UnorderedRequest).value.questions[1].order == 0
  {
    UnorderedRequestCreated();
    assert UnorderedRequest.questions[1].order.None?;
  }

  lemma UnorderedRequestCreated()
    ensures CreateQuiz(UnorderedRequest).Success?
  {
    UnorderedTitleValid();
    UnorderedQuestionsValid();
    PairValid(FranceQuestion, PeruQuestion, Some(DefaultOrder));
    PairQuizValid("Capitals", FranceQuestion, PeruQuestion);
    ValidatedRequestIsCreated(UnorderedRequest);
  }

  lemma UnorderedTitleValid()
    ensures !AllSpace("Capitals", IsPySpace) && |PyStrip("Capitals")| <= TitleMaxLength && '\0' !in "Capitals"
  {
    NonBlankTitle("Capitals");
  }

  lemma UnorderedQuestionsValid()
    ensures ValidateQuestion(FranceQuestion, Some(DefaultOrder)).Some?
    ensures ValidateQuestion(PeruQuestion, Some(DefaultOrder)).Some?
  {
    FranceQuestionValid();
    PeruQuestionValid();
  }

  lemma FranceQuestionValid()
    ensures ValidateQuestion(FranceQuestion, Some(DefaultOrder)).Some?
  {
    NulFree(FranceQuestion);
    TextQuestionValid(FranceQuestion);
  }

  lemma PeruQuestionValid()
    ensures ValidateQuestion(PeruQuestion, Some(DefaultOrder)).Some?
  {
    NulFree(PeruQuestion);
    TextQuestionValid(PeruQuestion);
  }

  lemma NulFree(q: QuestionInput)
    requires q == FranceQuestion || q == PeruQuestion
    ensures '\0' !in q.text && q.correctText.Some? && '\0' !in q.correctText.value
  {
  }

  lemma PairValid(q0: QuestionInput, q1: QuestionInput, d: Option<int>)
    requires ValidateQuestion(q0, d).Some? && ValidateQuestion(q1, d).Some?
    ensures forall i :: 0 <= i < 2 ==> ValidateQuestion([q0, q1][i], d).Some?
  {
  }

  lemma PairQuizValid(title: string, q0: QuestionInput, q1: QuestionInput)
    requires !AllSpace(title, IsPySpace) && |PyStrip(title)| <= TitleMaxLength && '\0' !in title
    requires forall i :: 0 <= i < 2 ==> ValidateQuestion([q0, q1][i], Some(DefaultOrder)).Some?
    ensures ValidateQuizWith(QuizInput(title, None, [q0, q1]), Some(DefaultOrder)).Success?
  {
  }

  /** A request that passes validation is created. */
  lemma ValidatedRequestIsCreated(input: QuizInput)
    requires ValidateQuizWith(input, Some(DefaultOrder)).Success?
    ensures CreateQuiz(input).Success?
  {
  }

  /** The endpoint with the evidently intended fallback: an omitted order is
      left absent by validation, so the question's position is used. */
  function CreateQuizIntended(input: QuizInput): (r: Result<QuizRow, ValidationError>)
    ensures r.Success? <==> CreateQuiz(input).Success?
    ensures r.Success? ==> |r.value.questions| == |input.questions|
    ensures r.Success? ==> forall i :: 0 <= i < |input.questions| ==>
      r.value.questions[i].order == input.questions[i].order.GetOr(i)
    ensures r.Success? ==> forall i :: 0 <= i < |input.questions| ==>
      var q := r.value.questions[i];
      var w := CreateQuiz(input).value.questions[i];
      q.text == w.text && q.qtype == w.qtype && q.correctText == w.correctText && q.choices == w.choices
  {
    match ValidateCreateIntended(input)
    case Failure(e) => Failure(e)
    case Success(d) =>
      IntendedRowsAgree(input);
      Success(QuizRowFor(d))
  }

  /** Without the order default, validation accepts the same requests and the
      stored questions differ at most in their order. */
  lemma IntendedRowsAgree(input: QuizInput)
    requires ValidateCreateIntended(input).Success?
    ensures CreateQuiz(input).Success?
    ensures forall i :: 0 <= i < |input.questions| ==>
      var q := QuizRowFor(ValidateCreateIntended(input).value).questions[i];
      var w := CreateQuiz(input).value.questions[i];
      q.text == w.text && q.qtype == w.qtype && q.correctText == w.correctText && q.choices == w.choices
  {
    var d := ValidateCreateIntended(input).value;
    var e := ValidateCreate(input).value;
    assert CreateQuiz(input).value == QuizRowFor(e);
    forall i | 0 <= i < |input.questions|
      ensures var q := QuestionRowFor(i, d.questions[i]);
        var w := QuestionRowFor(i, e.questions[i]);
        q.text == w.text && q.qtype == w.qtype && q.correctText == w.correctText && q.choices == w.choices
    {
      assert ValidateQuestion(input.questions[i], None) == Some(d.questions[i]);
      assert ValidateQuestion(input.questions[i], Some(DefaultOrder)) == Some(e.questions[i]);
      IntendedRowAgrees(i, input.questions[i]);
    }
  }

  /** One question stored with and without the order default. */
  lemma IntendedRowAgrees(i: nat, q: QuestionInput)
    requires ValidateQuestion(q, None).Some?
    ensures ValidateQuestion(q, Some(DefaultOrder)).Some?
    ensures var a := QuestionRowFor(i, ValidateQuestion(q, None).value);
      var b := QuestionRowFor(i, ValidateQuestion(q, Some(DefaultOrder)).value);
      a.text == b.text && a.qtype == b.qtype && a.correctText == b.correctText && a.choices == b.choices
  {
    OrderDefaultOnlyFillsOrder(q, None, Some(DefaultOrder));
  }

}

=== FILE: wrappers.dfy ===
/** Failure-compatible Option and Result types used throughout the model. */
module Wrappers {

  /** A value that may be absent: a missing JSON key, a NULL column, `None`. */
  datatype Option<+T> = None | Some(value: T) {

    predicate IsFailure() {
      None?
    }

    function PropagateFailure<U>(): Option<U>
      requires None?
    {
      None
    }

    function Extract(): T
      requires Some?
    {
      value
    }

    /** Python's `d.get(key, default)` and JavaScript's `x ?? default`. */
    function GetOr(default: T): T {
      match this
      case Some(v) => v
      case None => default
    }
  }

  /** Either a computed value or the error the source raises or returns. */
  datatype Result<+R, +E> = Success(value: R) | Failure(error: E) {

    predicate IsFailure() {
      Failure?
    }

    function PropagateFailure<U>(): Result<U, E>
      requires Failure?
    {
      Failure(error)
    }

    function Extract(): R
      requires Success?
    {
      value
    }
  }
}
